=== FILE: README.md ===
# Serial framing and receivers of the Giga motor link

This project is a Dafny model of the byte-level core of a host program that
talks to an Arduino Giga board over a serial line. It covers the two wire
framings the program uses and the receivers that parse them.

- **The COBS link** (`src/arduino.rs`). A raw frame is
  `action, command, len (LE), payload, CRC (LE)`. The CRC is CRC-16/USB over
  the length bytes and the payload. The frame is COBS-stuffed and sent
  between two `0x00` delimiters. On receipt:
  - `process_normal_byte` collects the bytes between delimiters, unstuffs
    them and decodes them with `decode_message`;
  - for sensor reports it decides the new "triggered" state;
  - the `ReceiveState` machine in `listen` diverts text that follows the
    in-band marker `[DEBUG]` into a debug line.
- **The start-byte link** (`src/main.rs`). A frame is
  `0x7e, cmd, command, len (LE), payload, CRC (LE)`. `build_frame` lays it
  out, in two copies. `GigaCommunicate::listen` parses it one byte at a time
  with a cursor.
- **The byte codes** (`src/model.rs`). These are the `Action`, `Command` and
  `ErrorCode` enums with their conversions from bytes, and
  `Message::default`.

## How the model is organised

- **Data and byte codes.**
  - `Wrappers`: `Option` and `Result`.
  - `Bytes`: bytes, `u16`, and little-endian conversion.
  - `Crc16`: CRC-16/USB, bit by bit.
  - `Cobs`: COBS encode and decode with the `cobs` crate's block rules.
  - `Cbor`: the decoded CBOR value tree.
  - `Model`: the enums, `Message`, and the error kinds.
- **Shared receive state.**
  - `RxBuffer`: the receive buffer, the cursor and `reset`.
  - `StartFrame`: the byte layout of the start-byte frame.
- **The COBS link.**
  - `ArduinoFrame`: the builders and `decode_message`.
  - `Sensor`: the sensor-trigger decision.
  - `Window`: the 100-entry timing windows.
  - `ArduinoRx`: `process_normal_byte`, the `[DEBUG]` detector and `listen`.
- **The start-byte link.**
  - `Giga`: the two `build_frame` copies and the `listen` parser of `main.rs`.

Everything outside the byte stream is a parameter:

- **CBOR decoding.** RFC 8949 decoding of a payload into a
  `HashMap<String, Value>` is the function `Cbor.Decoder`. It returns `None`
  where serde_cbor fails.
- **Key order.** The iteration order of a `HashMap`'s keys is a parameter.
  In the COBS receiver it is `ArduinoRx.Env.keyOrder`. For the trigger
  decision it is the `order` argument of `Sensor.SensorTrigger`.
- **Decode step.** `ArduinoRx.Env.corrected` chooses the COBS decode step
  that `process_normal_byte` runs. With `false` it is the code's step, which
  hands `decode_message` the whole `len-1`-byte output buffer. With `true` it
  hands on only the decoded bytes (see "## Findings").
- **Panics.** A Rust panic from indexing or slicing out of range is modelled
  as the error `IndexOutOfBounds`. A `cobs::encode` into a buffer that is too
  small is modelled as `CobsBufferTooSmall`. The model follows the `cobs`
  crate's encoder (`Cobs.EncodeInto`). It writes each block's code byte when
  the block closes. A data byte or a closed block's code past the buffer
  panics. The final code byte is written when the encoder finishes, and only
  if it fits. The reported size counts it either way.

As given, the program does not build, for two reasons:

- `src/main.rs` imports a type `CMD` that `src/model.rs` does not define. The
  model reads `CMD` as the action enum. The comment at `src/main.rs:21` gives
  its byte values, and they match `Action`'s.
- `src/main.rs:401` names `Command::SensorHIGH`, but the variant with byte
  0x06 is called `Sensor` (`src/model.rs:69`). The model reads the two names
  as the same command, as the comment at `src/main.rs:25` suggests ("Sensor
  High=0x06").

## Model

| member | source | states |
|---|---|---|
| Model.ActionFromByte | src/model.rs:28-38 | The conversion succeeds exactly for the four action discriminants (0xaa, 0xa8, 0xae, 0x00). It returns the variant with that byte, and fails with "Invalid CMD Byte" for every other byte. |
| Model.ActionRoundTrip | src/model.rs:14-38 | Every action converts back from its own byte, and distinct actions have distinct bytes. |
| Model.CommandFromByte | src/model.rs:76-90 | The conversion is total. Bytes 0x00..0x07 give the command with that discriminant, and every larger byte gives NONE. |
| Model.CommandRoundTrip | src/model.rs:50-88 | Every command converts back from its own byte. |
| Model.ErrorCodeFromU32 | src/model.rs:236-257 | 0 and 1001..1015 give the code with that value, and every other value gives UnknownError. |
| Model.ErrorCodeRoundTrip | src/model.rs:217-257 | Every code's value is one of the listed values, and it converts back to the same code. Distinct codes have distinct values. |
| Model.DefaultMessage | src/model.rs:201-213 | The default message has action and command NONE, size and CRC 0, and every byte vector and map empty. It is not the message of any frame. |
| Crc16.CheckValue | src/arduino.rs:15 | The bitwise CRC-16/USB gives 0xB4C8 on "123456789", the algorithm's published check value. |
| Crc16.RegisterAppend | src/arduino.rs:15 | Feeding two pieces one after the other leaves the same CRC register as feeding them joined. |
| Crc16.ChecksumStreams | src/arduino.rs:516 | `CRC16.checksum` can be computed in pieces: carrying the register across any split of the input gives the same digest. |
| Cobs.Encode | src/arduino.rs:520-521 | The stuffed bytes hold no zero and are at least one byte longer than the data. Data under 254 bytes is exactly one byte longer. |
| Cobs.Decode | src/arduino.rs:219-224 | A successful decode of a non-empty buffer is shorter than the buffer. |
| Cobs.DecodeEncode | src/arduino.rs:219-221 | Decoding inverts encoding for every input. |
| Cobs.RunAfterZeroOverhead | src/arduino.rs:520-521 | A run of 254 non-zero bytes right after a zero makes the stuffed form at least two bytes longer than the data. |
| Cobs.EncodeBound | src/arduino.rs:520-521 | Stuffing adds one code byte, plus at most one more for each full 254-byte block. |
| Cobs.ZeroEndEmpty | src/arduino.rs:520-521 | Data ending in a zero leaves the stuffed form an empty last block, whose code byte the encoder writes last. |
| Cobs.ShortNonZeroEnd | src/arduino.rs:520-521 | Fewer than 254 bytes ending in a non-zero byte leave a non-empty last block. |
| Cobs.EmptyBlockAfterZero | src/arduino.rs:520-521 | The blocks before a zero byte do not decide whether the last block is empty. |
| Cobs.EmptyBlockAfterRun | src/arduino.rs:520-521 | After a zero and then 254 non-zero bytes, only the bytes that follow decide whether the last block is empty. |
| Cobs.DecodeWithoutFinalCode | src/arduino.rs:219-221 | When the last block is empty, the stuffed form ends in the code byte 0x01. Without that byte it still decodes, to the data less its trailing zero, or to the data itself when the data ends on a full block. |
| Cobs.EncodeInto | src/arduino.rs:520-521 | The crate's encoder into a fixed buffer panics exactly when the stuffed form is two or more bytes longer than the buffer, or one byte longer with a non-empty last block. |
| Cobs.EncodeIntoContents | src/arduino.rs:520-521 | The buffer has the given size, and the reported size is the full stuffed length. A buffer with room holds the stuffed form, which decodes to the data. A buffer one byte short holds the stuffed form less its final 0x01; it has no zero and decodes to the data less its trailing zero. |
| RxBuffer.Reset | src/arduino.rs:107-116 | `reset` leaves a 1024-byte all-zero buffer, cursor 0, zeroed length and CRC bytes, and payload size 0. |
| RxBuffer.Store | src/arduino.rs:184 | Storing a byte writes only the slot under the cursor. |
| StartFrame.LayoutDeterminesFrame | src/main.rs:17-40 | The start-byte layout fixes every byte of a frame, given its codes and payload. |
| ArduinoFrame.BuildFrame | src/arduino.rs:480-496 | The legacy frame has the start-byte layout: 0x7e, the codes, LE length, the payload, and LE CRC over the length and payload. The returned CRC is the one in the last two bytes. |
| ArduinoFrame.BuildCobsRaw | src/arduino.rs:498-517 | The raw frame is `payload.len()+6` bytes: the codes, LE length (truncated to 16 bits), the payload, and LE CRC over the length and payload only. The returned CRC is the one stored. |
| ArduinoFrame.BuildCobsFrame | src/arduino.rs:498-524 | As written, the output buffer has `raw.len()+1` bytes and holds no zero; `encoded_size` is the full stuffed length. It panics exactly when the stuffed frame is longer by two or more bytes, or by one with a non-empty last block. When the stuffed frame fits, the buffer holds it and it decodes to the raw frame. When it is one byte too long with an empty last block, the buffer holds all of it but the final 0x01 and decodes to the raw frame less its trailing zero. Frames under 254 bytes always fit. |
| ArduinoFrame.BuildCobsFramePanics | src/arduino.rs:520-521 | As written, a payload of 254 or 255 bytes that opens with 254 non-zero bytes makes `cobs::encode` overrun its buffer when the CRC's high byte is non-zero. |
| ArduinoFrame.BuildCobsFrameTruncates | src/arduino.rs:520-523 | On the same payloads with a CRC below 0x100, the build succeeds. The buffer lacks the final code byte, `encoded_size` is one more than the buffer, and the buffer decodes to the raw frame without its last byte. |
| ArduinoFrame.BuildCobsFrameSized | src/arduino.rs:498-524 | Corrected, with a buffer sized for the worst case: it never fails, its first `encodedSize` bytes are the stuffed frame, and they decode back to the raw frame. |
| ArduinoFrame.BuildersAgreeWhenFits | src/arduino.rs:498-524 | Wherever the written builder succeeds, it reports the same size and CRC as the sized one, and its buffer is a prefix of the sized one's stuffed frame. When the written buffer holds the whole stuffed frame, the two frames are equal. |
| ArduinoFrame.Delimit | src/arduino.rs:163-164 | The bytes sent are one zero, the stuffed frame, then one zero, and there is no other zero. |
| ArduinoFrame.DecodeMessageAsWritten | src/arduino.rs:526-567 | As written, a frame under 6 bytes is rejected. A length field that reaches past the frame hits the panic of the payload slice. |
| ArduinoFrame.DecodeMessage | src/arduino.rs:526-567 | Corrected, it never panics. It succeeds exactly when the frame has at least 6 bytes, the length fits, the payload decodes, and the stored CRC equals the CRC over `frame[2..len-2]`. |
| ArduinoFrame.DecodeChecked | src/arduino.rs:535-566 | CBOR is checked before the CRC. A mismatch reports the computed CRC and then the stored one. On success the action is the one `Action::try_from` gives, or NONE where it fails; the command is read the same way; the payload bytes are the `size` bytes after the header and the CRC is the computed one. |
| ArduinoFrame.Assemble | src/arduino.rs:557-566 | The decoded message is consistent: its size and CRC byte vectors are the LE encodings of its size and CRC, and it holds `size` payload bytes. |
| ArduinoFrame.DecodeMessageAgrees | src/arduino.rs:542 | The written and corrected decoders agree wherever the written one does not panic. |
| ArduinoFrame.DecodeMessagePanics | src/arduino.rs:542 | A 6-byte frame whose length field says 16 makes the written decoder index to 20. The corrected one reports the payload past the frame end. |
| ArduinoFrame.DecodeBuildRoundTrip | src/arduino.rs:498-567 | Decoding a built raw frame gives back the action, command, size, payload, its bytes and the builder's CRC. If the payload is not a CBOR map it gives the CBOR error. |
| Sensor.ScanMotors | src/arduino.rs:289-313 | A flag comes from some motor entry that carries a boolean `triggered`. No motor entry means no flag. Which entry gives the flag is stated by ScanMotorsFindsLast and LastFlagDecides. |
| Sensor.ScanMotorsNone | src/arduino.rs:289-313 | The loop sets no state exactly when the first map-valued entry in key order is missing or lacks a boolean `triggered`. |
| Sensor.ScanMotorsFindsLast | src/arduino.rs:289-313 | A state the loop sets is the flag of some entry `i` such that every map entry before it carries a flag and the next map entry after it, if any, carries none. |
| Sensor.LastFlagDecides | src/arduino.rs:289-313 | Conversely, the flag of such an entry `i` is the state the loop sets. |
| Sensor.ScanMotorsAgreeing | src/arduino.rs:289-313 | When all motor entries carry the same flag, the scan's result does not depend on the order. |
| Sensor.SensorTrigger | src/arduino.rs:274-323 | Non-sensor commands keep the state. A top-level boolean `triggered` wins. Otherwise a flag set by the motor loop becomes the state and marks it updated. With no motor flag, `Sensor` gives false and `SensorLOW` gives true. |
| Sensor.SensorTriggerFromEntries | src/arduino.rs:274-323 | Without a top-level flag, a sensor report is marked updated exactly when the loop does not stop at the first map entry. Then the state is the flag of the `LastFlagAt` entry; otherwise it is the command's default. |
| Sensor.TriggerOrderIndependent | src/arduino.rs:289-313 | When all motor flags agree, any two enumerations of the keys give the same decision. |
| Sensor.TriggerOrderMatters | src/arduino.rs:289-313 | For a payload with disagreeing motor flags, two key orders give different decisions. |
| Window.Push | src/arduino.rs:197-201 | A push appends the sample and drops the oldest once 100 are held. |
| Window.PushAllKeepsLatest | src/arduino.rs:252-257 | After any number of pushes, the window holds the latest `min(n, 100)` samples, in order. |
| ArduinoRx.UnstuffAsWritten | src/arduino.rs:219-224 | As written, the decoded buffer has `len-1` bytes: the decoded frame, then zeros up to the end. It fails exactly when COBS decoding fails. |
| ArduinoRx.Unstuff | src/arduino.rs:219-224 | Corrected, it hands on exactly the decoded frame, and that is the original of any stuffed buffer. |
| ArduinoRx.FrameEvents | src/arduino.rs:244-330 | A decoded frame first yields its message. A sensor report then yields its new trigger state and the motor command sent in reply. Other commands yield nothing more. |
| ArduinoRx.ProcessFrameAsWritten | src/arduino.rs:215-323 | As written, a COBS error is reported as such. Otherwise the result is that of the unguarded decoder on the decoded frame padded with zeros to `len-1` bytes, with the sensor-trigger decision for the decoded message. |
| ArduinoRx.ProcessFrame | src/arduino.rs:215-323 | A COBS error, a decode error, or the decoded message together with its sensor-trigger decision. |
| ArduinoRx.UnstuffAgrees | src/arduino.rs:219-224 | The two unstuffing steps agree when stuffing added exactly one byte. |
| ArduinoRx.ProcessFrameAgrees | src/arduino.rs:219-234 | For frames under 254 bytes, written and corrected frame processing agree. |
| ArduinoRx.UnstuffAsWrittenPads | src/arduino.rs:219-234 | When stuffing added more than one byte, the written step hands on the frame followed by zero bytes, not the frame itself. |
| ArduinoRx.LongFrameAsWritten | src/arduino.rs:219-232 | As written, a frame whose stuffing grew by more than one byte reaches the decoder with its length field intact. The stored CRC it reads is the last CRC byte and a zero, or two zeros. |
| ArduinoFrame.LongPayloadStuffsLong | src/arduino.rs:498-521 | A payload of 254 or 255 bytes that opens with 254 non-zero bytes gives a raw frame that needs more than one extra byte when stuffed. The length field's high byte is zero, the payload run follows it, and the frame ends in the CRC's high byte. |
| ArduinoRx.NormalByte | src/arduino.rs:177-348 | A zero always resets the buffer. It opens a frame, or closes a non-empty one and processes it, after which no frame is open; a zero that opens a frame leaves the trigger flag alone. Other bytes are appended. A full buffer resets. The cursor stays below 1024. Events come only from a processed frame, and an error only from processing one. Frames go through the written decode step or the corrected one, as `Env.corrected` says. |
| ArduinoRx.CheckOverflow | src/arduino.rs:342-345 | A cursor that reached 1024 resets the buffer, so the cursor is below 1024 afterwards. A smaller cursor changes nothing. The frame flag and trigger state are kept. |
| ArduinoRx.NormalRun | src/arduino.rs:366-414 | Feeding bytes one at a time keeps the buffer state valid. |
| ArduinoRx.Accumulate | src/arduino.rs:335-345 | Non-zero bytes that fit are appended in order and nothing else happens. |
| ArduinoRx.DeliverFrame | src/arduino.rs:189-333 | A delimited stuffed frame given to an idle path is processed exactly once, and the path is idle again. This holds with either decode step. |
| ArduinoRx.Detect | src/arduino.rs:366-431 | One detector step: the bytes passed on plus the pending match equal the old pending match plus the byte. The byte that completes the marker enters Debug and passes nothing on. A byte that extends a proper prefix advances the match. Any other byte ends the match, and the held-back prefix and the byte go on in Normal. Debug mode passes nothing on. CR/LF completes the line, returning exactly the line so far; a line is completed only by CR/LF in Debug. ESC clears the line; CR/LF and ESC both return to Normal. Only 0x20..0x7e are kept. |
| ArduinoRx.MarkerEntersDebug | src/arduino.rs:366-394 | `[DEBUG]` received in Normal switches the detector to Debug and hands none of its bytes to the frame receiver. |
| ArduinoRx.DetectAll | src/arduino.rs:366-414 | Over a whole input that never reaches Debug, every byte is passed on in order, except a trailing partial match. |
| ArduinoRx.DebugOnlyOnMarker | src/arduino.rs:383-391 | A byte enters Debug only when it completes the marker at the start of the held-back bytes and the input. |
| ArduinoRx.NoMarkerAfterStep | src/arduino.rs:366-414 | After one byte of marker-free input, the detector is outside Debug and what it still holds is marker-free. |
| ArduinoRx.NoMarkerNoDebug | src/arduino.rs:383-394 | The detector reaches Debug only on a complete `[DEBUG]` marker. |
| ArduinoRx.NoBracketPassesThrough | src/arduino.rs:367-381 | In Normal, bytes without `[` go straight to the frame path. |
| ArduinoRx.OpenThen | src/arduino.rs:372-373 | In Normal, a `[` only opens a match, and the run continues as from `CheckingDebug(1)`. |
| ArduinoRx.MismatchThenPlain | src/arduino.rs:395-414 | A byte that breaks a partial match sends the matched prefix and then the byte on. Following input without `[` goes on unchanged. |
| ArduinoRx.RestartNotDetected | src/arduino.rs:383-414 | `[[DEBUG]` holds the marker, yet it stays in Normal and is passed on whole: a `[` that breaks a partial match is not tried as a new start. |
| ArduinoRx.InitialListen | src/arduino.rs:351-357 | The listener starts idle in Normal: the buffer is reset, no frame is open, the trigger flag is clear, and the debug line is empty. |
| ArduinoRx.ListenStep | src/arduino.rs:366-432 | One byte read by `listen` keeps the detector mode well formed. |
| ArduinoRx.ListenAll | src/arduino.rs:359-432 | Reading a byte sequence keeps the detector mode well formed. |
| ArduinoRx.ListenFactors | src/arduino.rs:366-414 | The listener equals the detector followed by `process_normal_byte` over exactly the bytes the detector passed on. |
| ArduinoRx.DelimitAddsNoMarker | src/arduino.rs:163-164 | Delimiters add no `[DEBUG]` marker. |
| ArduinoRx.PassesThrough | src/arduino.rs:366-414 | Marker-free input ending in a zero passes through whole and leaves Normal mode and the line untouched. |
| ArduinoRx.ListenDeliversFrame | src/arduino.rs:366-414 | A delimited, marker-free stuffed frame read by an idle listener is processed once, with either decode step, and the listener is idle again. |
| ArduinoRx.CobsLinkRoundTrip | src/arduino.rs:155-234 | A message built by `build_cobs_frame` and sent between delimiters is received with the same action, command, payload and CRC. This holds whenever the builder does not panic and the stuffed frame fits the 1024-byte receive buffer. With the written decode step it holds even when the buffer lost its final code byte. The corrected step needs the frame whole, or a CRC whose high byte is non-zero. |
| ArduinoRx.PaddingRestoresFrame | src/arduino.rs:219-224 | A stuffed frame without its final code byte, unstuffed as written, gives back the whole raw frame: the padding to `len-1` bytes restores a dropped trailing zero. |
| ArduinoRx.DetectorKeepsLine | src/arduino.rs:367-414 | Outside Debug the detector neither changes the debug line nor completes one. |
| Giga.BuildFrame | src/main.rs:17-40 | The free `build_frame` gives the start-byte layout over `frame[3..]`. |
| Giga.CommunicateBuildFrame | src/main.rs:364-384 | The method pushes the same fields and gives the same bytes as the free function. |
| Giga.BuildersAgree | src/main.rs:17-40 | The host's `build_frame` and the COBS program's legacy `build_frame` give identical bytes. |
| Giga.Initial | src/main.rs:219-221 | The parser starts with a reset buffer, cursor 0, and action and command both NONE. |
| Giga.Restart | src/main.rs:158-171 | `reset` restores the reset buffer state. The `cmd` and `command` locals survive it. |
| Giga.Step | src/main.rs:250-358 | A step keeps the buffer state valid and either moves the cursor one on or resets. It fails exactly when the cursor has reached 1024, when the length read at idx 4 is over 1017, or when at `6+size` the CRC does not match or the payload is not CBOR. |
| Giga.StepHeader | src/main.rs:251-286 | At idx 0 only 0x7e advances. At idx 1 a valid CMD byte is recorded and advances; any other byte resets. At idx 2 every byte is taken as the command. |
| Giga.StepDelivers | src/main.rs:304-352 | Only the second CRC byte delivers a frame. The frame carries the recorded cmd and command and the decoded payload, and its CRC equals the CRC over the length and payload. |
| Giga.StepFixed | src/main.rs:300-357 | Corrected step: it resets after a delivered frame, keeps the cursor within the announced frame, and never indexes past the buffer. |
| Giga.Run | src/main.rs:224-360 | Reading bytes one at a time keeps the buffer state valid. |
| Giga.HeaderStep | src/main.rs:254-299 | An accepted header byte advances the cursor and records its field. |
| Giga.OpeningSteps | src/main.rs:254-286 | The start byte, a valid CMD byte and the command byte take a reset parser to idx 3, with cmd and command recorded. |
| Giga.HeaderSteps | src/main.rs:254-299 | The five header bytes of a start-byte frame take a reset parser to the first payload byte, with cmd, command and size recorded. |
| Giga.PayloadStep | src/main.rs:300-303 | A payload byte is stored and the cursor advances. |
| Giga.PayloadSteps | src/main.rs:300-303 | The payload bytes bring the parser to the first CRC byte, with the buffer holding the frame so far. |
| Giga.FirstCrcStep | src/main.rs:304-306 | The first CRC byte goes to `crc_bytes[0]`. |
| Giga.LastCrcStep | src/main.rs:304-326 | The second CRC byte triggers the CRC check, then the CBOR decode, then delivery. |
| Giga.CrcSteps | src/main.rs:304-357 | The two CRC bytes of a well-formed frame deliver it. As written the cursor is left one past the frame; corrected, the parser resets. |
| Giga.ReceiveFrame | src/main.rs:250-358 | A start-byte frame fed to a reset parser is delivered exactly once, with its cmd, command, decoded payload and CRC, or gives the CBOR error. |
| Giga.BuildReceiveRoundTrip | src/main.rs:250-352 | Whatever `build_frame` sends, a fresh parser receives. |
| Giga.ByteAfterFrameDropped | src/main.rs:350-357 | As written, the byte after a delivered frame is always discarded. |
| Giga.NextStartByteLost | src/main.rs:350-357 | After one frame, the next frame's 0x7e is lost as written, and accepted when corrected. |
| Giga.MaximalFramePanics | src/main.rs:251 | After a frame with a 1017-byte payload, the next byte indexes past the buffer as written. Corrected, it does not. |
| Giga.BackToBackFixed | src/main.rs:250-358 | Corrected, two frames sent back to back are both delivered, in order. |

## Left out

- Port I/O is not modelled. This covers reads and writes, flushing, reopening the port after a read error, and the timeout branch that resends a motor request. These are `src/arduino.rs:359-364`, `src/arduino.rs:434-476` and `src/main.rs:224-249`. `send`, `send_motor` and `send_cobs_motor` only build a fixed test payload and write it.
- The COBS receiver does not send the motor command it issues after a sensor report. It appears only as the event `MotorReply`.
- Timing is not modelled: `Instant`, elapsed times and the averages over the 100-entry windows. `Window` models only the windows' contents.
- Logging, `format!` strings, the `messages`/`info_msg_buf`/`debug_msg_buf` logs and `Display` impls are not modelled. Clearing these logs in `reset` is therefore not modelled either.
- The CBOR value tree omits floats and tags, because the model never inspects them. CBOR encoding and decoding are the `Decoder` parameter.
- The host parser's `times` counter and the `send_motor` call every hundredth frame are left out, because that call is I/O.
- `Motion`, `StateMessage` and `PayloadMessage` are not modelled. They are serialisation shapes with floating-point fields.
- `src/serial.rs` and `src/utils.rs` are not part of this model. The first is a retry loop around opening a port. The second is not in the module tree and does not build.
- Relaying operator input, command and reconnect channels, session supervision and telemetry rate limiting are not modelled. None of the source files implement them.
- ArduinoRx.FrameEvents: the `SensorState` event stands for the trigger state after every sensor report. The code logs that state only when a motor entry set it or in debug mode, and logging is not modelled.
- ArduinoFrame.BuildersAgreeWhenFits: the two builders' frames are equal only when the written buffer holds the whole stuffed frame. When the written builder drops the final code byte, the written frame is the sized frame less its last byte.
- ArduinoRx.CobsLinkRoundTrip: the corrected decode step is not promised to deliver a frame that lost its final code byte when the CRC is below 0x100. That frame then decodes one byte short, without the CRC's zero high byte.
- ArduinoRx.ListenDeliversFrame: it assumes the stuffed frame does not spell `[DEBUG]`. A frame that does is taken apart by the detector, as in the code.

## Findings

| source | as written | input that shows it | evidently intended | confidence | as-written member | corrected member |
|---|---|---|---|---|---|---|
| src/main.rs:350-357 | After the second CRC byte of a frame, the cursor is left at `7+size` without a reset. The next byte goes to the catch-all arm, which resets and discards it. With a 1017-byte payload the cursor reaches 1024, and the next `buffer[idx]` write is out of bounds. | Two frames from `build_frame` sent back to back: the second frame's 0x7e is discarded. Or one frame with a 1017-byte payload followed by any byte. | Reset after a delivered frame, so the next byte is read as a new start byte. | not executed; proved on the model | Giga.NextStartByteLost | Giga.BackToBackFixed |
| src/arduino.rs:542 | `decode_message` slices `frame[4..4+size]` with the size taken from the frame, without checking that it fits. | The 6-byte frame `aa 03 10 00 00 00` claims a 16-byte payload, so the slice indexes to 20. | Reject a length field that reaches past the frame, as an error. | not executed; proved on the model | ArduinoFrame.DecodeMessagePanics | ArduinoFrame.DecodeMessage |
| src/arduino.rs:219-232 | The COBS output buffer is `len-1` bytes, and the whole buffer goes to `decode_message`, not just the `frame_size()` decoded bytes. A frame holding a run of 254 non-zero bytes stuffs to more than one extra byte. The decoder then sees the frame followed by zeros, and reads its CRC from the wrong place. | A raw frame whose payload is 254 bytes of 0x01. | Pass only the decoded bytes, `decoded_frame[..frame_size()]`. | not executed; proved on the model | ArduinoRx.LongFrameAsWritten | ArduinoRx.Unstuff |
| src/arduino.rs:520-521 | `build_cobs_frame` stuffs into a buffer of `frame.len()+1` bytes. A raw frame holding a run of 254 non-zero bytes needs one byte more. `cobs::encode` panics when a data byte falls past the buffer. When only the final code byte does not fit, it is skipped: the frame is sent without it, while `encoded_size` counts it (`ArduinoFrame.BuildCobsFrameTruncates`). | A payload of 254 non-zero bytes whose CRC has a non-zero high byte panics. With a zero high byte, the frame is sent one byte short. | Size the buffer for the worst case, one extra byte per full 254-byte block, and send only the `encoded_size` bytes written. | not executed; proved on the model | ArduinoFrame.BuildCobsFramePanics | ArduinoFrame.BuildCobsFrameSized |

=== FILE: arduino_frame.dfy ===
/**
 * The frame builders and the frame decoder of the COBS link (src/arduino.rs).
 * A raw COBS-link frame is `action, command, len (LE), payload, CRC (LE)`,
 * the CRC-16/USB taken over the length bytes and the payload; on the wire it
 * is COBS-stuffed and wrapped in `0x00` delimiters.
 */
module ArduinoFrame {
  import opened Bytes
  import opened Wrappers
  import opened Cbor
  import opened Model
  import opened Crc16
  import Cobs
  import opened StartFrame

  /** `build_frame`: the legacy start-byte frame and its CRC. */
  function BuildFrame(action: Action, command: Command, payload: seq<byte>): (r: (seq<byte>, u16))
    ensures IsStartFrame(r.0, ActionByte(action), CommandByte(command), payload)
    ensures r.1 == FromLe(r.0[|payload| + 5], r.0[|payload| + 6])
  {
    var n := |payload|;
    var frame := [StartByte, ActionByte(action), CommandByte(command)] + ToLe(AsU16(n)) + payload;
    var crc := Checksum(frame[3..]);
    assert (frame + ToLe(crc))[3..5 + n] == frame[3..];
    (frame + ToLe(crc), crc)
  }

  /** The bytes before the payload in a raw COBS-link frame. */
  const CobsHeaderLen: nat := 4

  /** `frame` is the raw (unstuffed) COBS-link frame carrying `payload`, described byte by byte. */
  predicate IsCobsRaw(frame: seq<byte>, actionByte: byte, commandByte: byte, payload: seq<byte>) {
    var n := |payload|;
    && |frame| == n + 6
    && frame[0] == actionByte
    && frame[1] == commandByte
    && FromLe(frame[2], frame[3]) == AsU16(n)
    && frame[4..4 + n] == payload
    && FromLe(frame[4 + n], frame[5 + n]) == Checksum(frame[2..4 + n])
  }

  /** The raw frame `build_cobs_frame` lays out before stuffing, with the CRC it computed. */
  function BuildCobsRaw(action: Action, command: Command, payload: seq<byte>): (r: (seq<byte>, u16))
    ensures IsCobsRaw(r.0, ActionByte(action), CommandByte(command), payload)
    ensures r.1 == FromLe(r.0[|payload| + 4], r.0[|payload| + 5])
  {
    var n := |payload|;
    var frame := [ActionByte(action), CommandByte(command)] + ToLe(AsU16(n)) + payload;
    var crc := Checksum(frame[2..]);
    assert (frame + ToLe(crc))[2..4 + n] == frame[2..];
    (frame + ToLe(crc), crc)
  }

  /** What `build_cobs_frame` returns: the output buffer, the stuffed length and the CRC. */
  datatype CobsFrame = CobsFrame(encoded: seq<byte>, encodedSize: nat, crc: u16)

  /**
   * `build_cobs_frame`: stuffs the raw frame into a buffer of `raw.len() + 1`
   * bytes. Where `cobs::encode` panics the result is an error; a stuffed form
   * one byte too long still fits when its last block is empty, and the
   * buffer then lacks the final `0x01` while the returned size counts it.
   */
  function BuildCobsFrame(action: Action, command: Command, payload: seq<byte>): (r: Result<CobsFrame, Error>)
    ensures var (raw, crc) := BuildCobsRaw(action, command, payload);
      var enc := Cobs.Encode(raw);
      && (r.Err? <==> |enc| > |raw| + 2 || (|enc| == |raw| + 2 && !Cobs.EndsEmptyBlock(raw)))
      && (r.Ok? ==>
            && |r.value.encoded| == |raw| + 1
            && r.value.encodedSize == |enc|
            && Cobs.NoZero(r.value.encoded)
            && r.value.crc == crc)
      && (r.Ok? && r.value.encodedSize == |raw| + 1 ==>
            && r.value.encoded == enc
            && Cobs.Decode(r.value.encoded) == Some(raw))
      && (r.Ok? && r.value.encodedSize != |raw| + 1 ==>
            && r.value.encodedSize == |raw| + 2
            && Cobs.EndsEmptyBlock(raw)
            && enc == r.value.encoded + [1]
            && Cobs.Decode(r.value.encoded) == Some(Cobs.DropFinalZero(raw)))
    ensures |payload| + 6 < Cobs.MaxRun ==> r.Ok? && r.value.encodedSize == |payload| + 7
  {
    var (raw, crc) := BuildCobsRaw(action, command, payload);
    match Cobs.EncodeInto(raw, |raw| + 1)
    case None => Err(CobsBufferTooSmall(|Cobs.Encode(raw)|, |raw| + 1))
    case Some((buf, n)) =>
      Cobs.EncodeIntoContents(raw, |raw| + 1, buf, n, Cobs.Encode(raw));
      Ok(CobsFrame(buf, n, crc))
  }

  /**
   * A payload of 254 to 255 bytes opening with 254 non-zero bytes gives a
   * raw frame whose stuffed form is longer than one extra byte: the length
   * field's high byte is zero and the payload run after it is a full block.
   */
  lemma LongPayloadStuffsLong(action: Action, command: Command, payload: seq<byte>)
    requires Cobs.MaxRun <= |payload| < 0x100 && Cobs.NoZero(payload[..Cobs.MaxRun])
    ensures var (raw, crc) := BuildCobsRaw(action, command, payload);
      && |Cobs.Encode(raw)| > |raw| + 1
      && raw[3] == 0
      && Cobs.NoZero(raw[4..4 + Cobs.MaxRun])
      && raw[|raw| - 1] == crc / 0x100
  {
    var (raw, crc) := BuildCobsRaw(action, command, payload);
    assert raw[3] == 0 by {
      assert FromLe(raw[2], raw[3]) == |payload|;
    }
    assert raw[4..4 + Cobs.MaxRun] == payload[..Cobs.MaxRun] by {
      assert raw[4..4 + |payload|] == payload;
    }
    Cobs.RunAfterZeroOverhead(raw, 3);
  }

  /**
   * As written, `build_cobs_frame` panics on such a payload whenever the
   * CRC's high byte is non-zero: the stuffed frame then ends in a non-empty
   * block whose last data byte falls past the buffer.
   */
  lemma BuildCobsFramePanics(action: Action, command: Command, payload: seq<byte>)
    requires Cobs.MaxRun <= |payload| < 0x100 && Cobs.NoZero(payload[..Cobs.MaxRun])
    requires BuildCobsRaw(action, command, payload).1 >= 0x100
    ensures BuildCobsFrame(action, command, payload).Err?
  {
    LongPayloadStuffsLong(action, command, payload);
    HighCrcLastBlock(action, command, payload);
  }

  /** The last block of such a frame holds the CRC's high byte when that byte is non-zero. */
  lemma HighCrcLastBlock(action: Action, command: Command, payload: seq<byte>)
    requires Cobs.MaxRun <= |payload| < 0x100 && Cobs.NoZero(payload[..Cobs.MaxRun])
    requires BuildCobsRaw(action, command, payload).1 >= 0x100
    ensures !Cobs.EndsEmptyBlock(BuildCobsRaw(action, command, payload).0)
  {
    LongPayloadStuffsLong(action, command, payload);
    var (raw, crc) := BuildCobsRaw(action, command, payload);
    assert raw[|raw| - 1] != 0;
    Cobs.NonZeroEndAfterRun(raw, 3);
  }

  /**
   * On the same payloads with a CRC below 0x100, the raw frame ends in a zero
   * and `build_cobs_frame` succeeds with a buffer one byte short of the
   * stuffed frame, reporting the full stuffed length.
   */
  lemma BuildCobsFrameTruncates(action: Action, command: Command, payload: seq<byte>)
    requires Cobs.MaxRun <= |payload| < 0x100 && Cobs.NoZero(payload[..Cobs.MaxRun])
    requires BuildCobsRaw(action, command, payload).1 < 0x100
    ensures var raw := BuildCobsRaw(action, command, payload).0;
      var r := BuildCobsFrame(action, command, payload);
      && r.Ok?
      && r.value.encodedSize == |raw| + 2 == |r.value.encoded| + 1
      && Cobs.Decode(r.value.encoded) == Some(raw[..|raw| - 1])
  {
    LongPayloadStuffsLong(action, command, payload);
    var raw := BuildCobsRaw(action, command, payload).0;
    var enc := Cobs.Encode(raw);
    Cobs.EncodeBound(raw);
    assert |enc| == |raw| + 2;
    Cobs.ZeroEndEmpty(raw);
    assert Cobs.DropFinalZero(raw) == raw[..|raw| - 1];
  }

  /** The room `cobs::encode` may need for `n` bytes: one code byte, plus one more per full 254-byte block. */
  function MaxEncodedLen(n: nat): nat {
    n + 1 + n / Cobs.MaxRun
  }

  /**
   * `build_cobs_frame` with the output buffer sized for the worst case: it
   * never fails, and its first `encodedSize` bytes are the stuffed frame.
   */
  function BuildCobsFrameSized(action: Action, command: Command, payload: seq<byte>): (r: CobsFrame)
    ensures var (raw, crc) := BuildCobsRaw(action, command, payload);
      && |r.encoded| == MaxEncodedLen(|raw|)
      && r.encodedSize <= |r.encoded|
      && r.encoded[..r.encodedSize] == Cobs.Encode(raw)
      && Cobs.Decode(r.encoded[..r.encodedSize]) == Some(raw)
      && r.crc == crc
  {
    var (raw, crc) := BuildCobsRaw(action, command, payload);
    var enc := Cobs.Encode(raw);
    Cobs.EncodeBound(raw);
    Cobs.DecodeEncode(raw);
    assert (enc + Zeros(MaxEncodedLen(|raw|) - |enc|))[..|enc|] == enc;
    CobsFrame(enc + Zeros(MaxEncodedLen(|raw|) - |enc|), |enc|, crc)
  }

  /** Wherever the written builder succeeds, the sized one stuffs the same bytes. */
  lemma BuildersAgreeWhenFits(action: Action, command: Command, payload: seq<byte>)
    requires BuildCobsFrame(action, command, payload).Ok?
    ensures var w := BuildCobsFrame(action, command, payload).value;
      var c := BuildCobsFrameSized(action, command, payload);
      && c.encodedSize == w.encodedSize
      && c.encoded[..c.encodedSize][..|w.encoded|] == w.encoded
      && (w.encodedSize == |w.encoded| ==> c.encoded[..c.encodedSize] == w.encoded)
      && c.crc == w.crc
  {
  }

  /** The bytes `send_cobs_motor` writes: the stuffed frame between two `0x00` delimiters. */
  function Delimit(encoded: seq<byte>): (r: seq<byte>)
    requires Cobs.NoZero(encoded)
    ensures |r| == |encoded| + 2 && r[0] == 0 && r[|r| - 1] == 0
    ensures r[1..|r| - 1] == encoded
    ensures forall i :: 0 < i < |r| - 1 ==> r[i] != 0
  {
    [0] + encoded + [0]
  }

  /** The little-endian length field of a frame that has one. */
  function SizeField(frame: seq<byte>): u16
    requires |frame| >= 4
  {
    FromLe(frame[2], frame[3])
  }

  /** The little-endian CRC in the last two bytes of a frame. */
  function StoredCrc(frame: seq<byte>): u16
    requires |frame| >= 2
  {
    FromLe(frame[|frame| - 2], frame[|frame| - 1])
  }

  /** The CRC the decoder computes: over everything between the two code bytes and the stored CRC. */
  function ComputedCrc(frame: seq<byte>): u16
    requires |frame| >= 4
  {
    Checksum(frame[2..|frame| - 2])
  }

  /** The message a frame that passed every check decodes to. */
  function Assemble(frame: seq<byte>, payload: Payload): (m: Message)
    requires |frame| >= 6 && 4 + SizeField(frame) <= |frame|
    ensures Consistent(m)
  {
    var size := SizeField(frame);
    ToLeFromLe(frame[2], frame[3]);
    ToLeFromLe(frame[|frame| - 2], frame[|frame| - 1]);
    Message(
      ActionFromByte(frame[0]).GetOr(Action.NONE),
      CommandFromByte(frame[1]),
      [frame[2], frame[3]],
      size,
      frame[4..4 + size],
      payload,
      frame[|frame| - 2..],
      StoredCrc(frame))
  }

  /**
   * `decode_message` as written: length check, then the payload slice
   * (which panics when the length field reaches past the frame), then CBOR,
   * then the CRC.
   */
  function DecodeMessageAsWritten(frame: seq<byte>, cbor: Decoder): (r: Result<Message, Error>)
    ensures |frame| < 6 ==> r == Err(FrameTooShort(|frame|))
    ensures |frame| >= 6 && 4 + SizeField(frame) > |frame| ==>
      r == Err(IndexOutOfBounds(4 + SizeField(frame), |frame|))
  {
    if |frame| < 6 then Err(FrameTooShort(|frame|))
    else
      var size := SizeField(frame);
      if 4 + size > |frame| then Err(IndexOutOfBounds(4 + size, |frame|))
      else DecodeChecked(frame, cbor)
  }

  /**
   * `decode_message` with the payload slice guarded: a length field that
   * reaches past the frame is reported as an error instead of a panic.
   */
  function DecodeMessage(frame: seq<byte>, cbor: Decoder): (r: Result<Message, Error>)
    ensures |frame| < 6 ==> r == Err(FrameTooShort(|frame|))
    ensures |frame| >= 6 && 4 + SizeField(frame) > |frame| ==>
      r == Err(PayloadPastFrameEnd(SizeField(frame), |frame|))
    ensures r.Err? ==> !r.error.IndexOutOfBounds?
    ensures r.Ok? <==>
      && |frame| >= 6
      && 4 + SizeField(frame) <= |frame|
      && cbor(frame[4..4 + SizeField(frame)]).Some?
      && StoredCrc(frame) == ComputedCrc(frame)
  {
    if |frame| < 6 then Err(FrameTooShort(|frame|))
    else
      var size := SizeField(frame);
      if 4 + size > |frame| then Err(PayloadPastFrameEnd(size, |frame|))
      else DecodeChecked(frame, cbor)
  }

  /** The checks `decode_message` makes once the payload lies inside the frame: CBOR first, then the CRC. */
  function DecodeChecked(frame: seq<byte>, cbor: Decoder): (r: Result<Message, Error>)
    requires |frame| >= 6 && 4 + SizeField(frame) <= |frame|
    ensures cbor(frame[4..4 + SizeField(frame)]).None? ==> r == Err(CborDecode)
    ensures cbor(frame[4..4 + SizeField(frame)]).Some? ==>
      (r.Ok? <==> StoredCrc(frame) == ComputedCrc(frame))
    ensures r.Err? && cbor(frame[4..4 + SizeField(frame)]).Some? ==>
      r.error == CrcMismatch(ComputedCrc(frame), StoredCrc(frame))
    ensures r.Ok? ==>
      && Consistent(r.value)
      && r.value.payloadBytes == frame[4..4 + SizeField(frame)]
      && r.value.payload == cbor(frame[4..4 + SizeField(frame)]).value
      && r.value.crcBytes == frame[|frame| - 2..]
      && r.value.crc == ComputedCrc(frame)
      && (ActionFromByte(frame[0]).Ok? ==> r.value.action == ActionFromByte(frame[0]).value)
      && (ActionFromByte(frame[0]).Err? ==> r.value.action == Action.NONE)
      && (frame[1] <= 0x07 ==> CommandByte(r.value.command) == frame[1])
      && (frame[1] > 0x07 ==> r.value.command == Command.NONE)
  {
    var size := SizeField(frame);
    match cbor(frame[4..4 + size])
    case None => Err(CborDecode)
    case Some(payload) =>
      if StoredCrc(frame) != ComputedCrc(frame) then Err(CrcMismatch(ComputedCrc(frame), StoredCrc(frame)))
      else Ok(Assemble(frame, payload))
  }

  /** The two decoders differ only where the written one panics. */
  lemma DecodeMessageAgrees(frame: seq<byte>, cbor: Decoder)
    requires !DecodeMessageAsWritten(frame, cbor).Err? || !DecodeMessageAsWritten(frame, cbor).error.IndexOutOfBounds?
    ensures DecodeMessage(frame, cbor) == DecodeMessageAsWritten(frame, cbor)
  {
  }

  /** A six-byte frame whose length field claims 16 payload bytes makes the written decoder panic. */
  lemma DecodeMessagePanics(cbor: Decoder)
    ensures DecodeMessageAsWritten([0xaa, 0x03, 0x10, 0x00, 0x00, 0x00], cbor) == Err(IndexOutOfBounds(20, 6))
    ensures DecodeMessage([0xaa, 0x03, 0x10, 0x00, 0x00, 0x00], cbor) == Err(PayloadPastFrameEnd(16, 6))
  {
  }

  /**
   * Round trip: decoding the raw frame `build_cobs_frame` lays out gives back
   * the action, the command, the payload and its size, and the builder's CRC,
   * whenever the payload is a CBOR map; otherwise the decoder reports the
   * CBOR error.
   */
  lemma DecodeBuildRoundTrip(action: Action, command: Command, payload: seq<byte>, cbor: Decoder)
    requires |payload| < 0x1_0000
    ensures var (raw, crc) := BuildCobsRaw(action, command, payload);
      && (cbor(payload).Some? ==>
            DecodeMessage(raw, cbor) == Ok(Message(action, command, ToLe(|payload|), |payload|, payload,
                                                   cbor(payload).value, ToLe(crc), crc)))
      && (cbor(payload).None? ==> DecodeMessage(raw, cbor) == Err(CborDecode))
  {
    var (raw, crc) := BuildCobsRaw(action, command, payload);
    var n := |payload|;
    assert SizeField(raw) == n;
    assert raw[2..|raw| - 2] == raw[2..4 + n];
    ToLeFromLe(raw[2], raw[3]);
    ToLeFromLe(raw[4 + n], raw[5 + n]);
    assert raw[|raw| - 2..] == [raw[4 + n], raw[5 + n]];
    ActionRoundTrip(action, action);
    CommandRoundTrip(command);
  }
}

=== FILE: arduino_rx.dfy ===
/**
 * The receive path of the COBS link (src/arduino.rs): `process_normal_byte`,
 * which collects the bytes between `0x00` delimiters and decodes each frame,
 * and the per-byte `ReceiveState` machine of `listen`, which diverts text
 * that follows the in-band marker `[DEBUG]` away from the frame path.
 */
module ArduinoRx {
  import opened Bytes
  import opened Wrappers
  import opened Cbor
  import opened Model
  import opened RxBuffer
  import opened Sensor
  import Cobs
  import ArduinoFrame

  /**
   * What the receive path takes from outside the byte stream: CBOR decoding
   * and the `HashMap` key order; and which COBS decode step it runs, the one
   * the code has (`corrected == false`) or the one that hands on only the
   * decoded bytes.
   */
  datatype Env = Env(cbor: Decoder, keyOrder: Payload -> seq<string>, corrected: bool)

  /** The state `process_normal_byte` reads and writes: the buffer, `buffer_started`, and `is_triggered`. */
  datatype NormalState = NormalState(rx: Rx, started: bool, isTriggered: bool)

  /** The buffer has its size and the cursor points inside it. */
  predicate NormalValid(s: NormalState) {
    Valid(s.rx) && s.rx.idx < MaxDataLen
  }

  /** What processing one frame produces. */
  datatype Event =
    | Decoded(msg: Message)
    | SensorState(triggered: bool)
    | MotorReply

  // ---------------------------------------------------------------- one frame

  /**
   * The COBS decode step as written: the output buffer is `vec![0; len - 1]`
   * and the whole buffer, not just the decoded prefix, is handed on.
   */
  function UnstuffAsWritten(cobsBuf: seq<byte>): (r: Result<seq<byte>, Error>)
    requires |cobsBuf| > 0
    ensures r.Ok? ==> |r.value| == |cobsBuf| - 1
    ensures r.Ok? <==> Cobs.Decode(cobsBuf).Some?
    ensures r.Ok? ==> r.value[..|Cobs.Decode(cobsBuf).value|] == Cobs.Decode(cobsBuf).value
    ensures r.Ok? ==> forall i :: |Cobs.Decode(cobsBuf).value| <= i < |r.value| ==> r.value[i] == 0
  {
    match Cobs.Decode(cobsBuf)
    case None => Err(CobsDecode)
    case Some(d) => Ok(d + Zeros(|cobsBuf| - 1 - |d|))
  }

  /** The COBS decode step handing on exactly the decoded bytes (`decoded_report.frame_size()` of them). */
  function Unstuff(cobsBuf: seq<byte>): (r: Result<seq<byte>, Error>)
    requires |cobsBuf| > 0
    ensures r.Ok? <==> Cobs.Decode(cobsBuf).Some?
    ensures forall raw :: cobsBuf == Cobs.Encode(raw) ==> r == Ok(raw)
  {
    forall raw | cobsBuf == Cobs.Encode(raw)
      ensures Cobs.Decode(cobsBuf) == Some(raw)
    {
      Cobs.DecodeEncode(raw);
    }
    match Cobs.Decode(cobsBuf)
    case None => Err(CobsDecode)
    case Some(d) => Ok(d)
  }

  /** The events one decoded frame produces: the message, then for a sensor report the new state and the motor command sent in reply. */
  function FrameEvents(msg: Message, t: Trigger): (evs: seq<Event>)
    ensures |evs| > 0 && evs[0] == Decoded(msg)
    ensures IsSensorCommand(msg.command) <==> |evs| > 1
    ensures IsSensorCommand(msg.command) ==> evs[1..] == [SensorState(t.isTriggered), MotorReply]
    ensures !IsSensorCommand(msg.command) ==> evs == [Decoded(msg)]
  {
    [Decoded(msg)] + (if IsSensorCommand(msg.command) then [SensorState(t.isTriggered), MotorReply] else [])
  }

  /** Frame processing as written: padded COBS output, unguarded `decode_message`. */
  function ProcessFrameAsWritten(env: Env, cobsBuf: seq<byte>, current: bool): (r: Result<(Message, Trigger), Error>)
    requires |cobsBuf| > 0
    ensures r.Ok? ==> r.value.1 == SensorTrigger(r.value.0.command, r.value.0.payload, env.keyOrder(r.value.0.payload), current)
    ensures Cobs.Decode(cobsBuf).None? ==> r == Err(CobsDecode)
    ensures Cobs.Decode(cobsBuf).Some? ==>
      var d := Cobs.Decode(cobsBuf).value;
      match ArduinoFrame.DecodeMessageAsWritten(d + Zeros(|cobsBuf| - 1 - |d|), env.cbor)
      case Err(e) => r == Err(e)
      case Ok(msg) => r == Ok((msg, SensorTrigger(msg.command, msg.payload, env.keyOrder(msg.payload), current)))
  {
    match UnstuffAsWritten(cobsBuf)
    case Err(e) => Err(e)
    case Ok(frame) =>
      match ArduinoFrame.DecodeMessageAsWritten(frame, env.cbor)
      case Err(e) => Err(e)
      case Ok(msg) => Ok((msg, SensorTrigger(msg.command, msg.payload, env.keyOrder(msg.payload), current)))
  }

  /**
   * Frame processing: COBS decode, `decode_message`, then the sensor-trigger
   * decision for sensor reports.
   */
  function ProcessFrame(env: Env, cobsBuf: seq<byte>, current: bool): (r: Result<(Message, Trigger), Error>)
    requires |cobsBuf| > 0
    ensures Cobs.Decode(cobsBuf).None? ==> r == Err(CobsDecode)
    ensures Cobs.Decode(cobsBuf).Some? ==>
      match ArduinoFrame.DecodeMessage(Cobs.Decode(cobsBuf).value, env.cbor)
      case Err(e) => r == Err(e)
      case Ok(msg) => r == Ok((msg, SensorTrigger(msg.command, msg.payload, env.keyOrder(msg.payload), current)))
  {
    match Unstuff(cobsBuf)
    case Err(e) => Err(e)
    case Ok(frame) =>
      match ArduinoFrame.DecodeMessage(frame, env.cbor)
      case Err(e) => Err(e)
      case Ok(msg) => Ok((msg, SensorTrigger(msg.command, msg.payload, env.keyOrder(msg.payload), current)))
  }

  /** The frame processor the receive path runs: the one the code has, or the corrected one. */
  function ProcessWith(env: Env, cobsBuf: seq<byte>, current: bool): (r: Result<(Message, Trigger), Error>)
    requires |cobsBuf| > 0
    ensures env.corrected ==> r == ProcessFrame(env, cobsBuf, current)
    ensures !env.corrected ==> r == ProcessFrameAsWritten(env, cobsBuf, current)
  {
    if env.corrected then ProcessFrame(env, cobsBuf, current) else ProcessFrameAsWritten(env, cobsBuf, current)
  }

  /** When the stuffed buffer is exactly one byte longer than what it decodes to, both decode steps hand on the same frame. */
  lemma UnstuffAgrees(cobsBuf: seq<byte>)
    requires |cobsBuf| > 0
    requires Cobs.Decode(cobsBuf).Some? && |Cobs.Decode(cobsBuf).value| == |cobsBuf| - 1
    ensures UnstuffAsWritten(cobsBuf) == Unstuff(cobsBuf)
  {
    var d := Cobs.Decode(cobsBuf).value;
    assert d + Zeros(0) == d;
  }

  /** Frames shorter than 254 bytes stuff to one byte more, so both frame processors see the same frame. */
  lemma ProcessFrameAgrees(env: Env, raw: seq<byte>, current: bool)
    requires |raw| < Cobs.MaxRun
    requires !ArduinoFrame.DecodeMessageAsWritten(raw, env.cbor).Err?
          || !ArduinoFrame.DecodeMessageAsWritten(raw, env.cbor).error.IndexOutOfBounds?
    ensures ProcessFrameAsWritten(env, Cobs.Encode(raw), current) == ProcessFrame(env, Cobs.Encode(raw), current)
  {
    var enc := Cobs.Encode(raw);
    Cobs.DecodeEncode(raw);
    UnstuffAgrees(enc);
    assert Unstuff(enc) == Ok(raw);
    ArduinoFrame.DecodeMessageAgrees(raw, env.cbor);
  }

  /**
   * When the stuffed frame is longer than one extra byte, the written decode
   * step hands `decode_message` the frame followed by zero bytes, so the
   * stored CRC it reads is made of the last CRC byte and a zero.
   */
  lemma UnstuffAsWrittenPads(raw: seq<byte>)
    requires |Cobs.Encode(raw)| > |raw| + 1
    ensures UnstuffAsWritten(Cobs.Encode(raw)) == Ok(raw + Zeros(|Cobs.Encode(raw)| - 1 - |raw|))
  {
    var enc := Cobs.Encode(raw);
    Cobs.DecodeEncode(raw);
    PaddedUnstuff(enc, raw);
  }

  /**
   * As written, a frame whose stuffing grew by more than one byte reaches
   * `decode_message` with zero bytes after it: the length field is read
   * intact, but the stored CRC is the frame's last CRC byte and a zero, or
   * two zeros when the padding is longer.
   */
  lemma LongFrameAsWritten(raw: seq<byte>)
    requires |raw| >= 4 && |Cobs.Encode(raw)| > |raw| + 1
    ensures var k := |Cobs.Encode(raw)| - 1 - |raw|;
      var padded := raw + Zeros(k);
      && UnstuffAsWritten(Cobs.Encode(raw)) == Ok(padded)
      && ArduinoFrame.SizeField(padded) == ArduinoFrame.SizeField(raw)
      && ArduinoFrame.StoredCrc(padded) == (if k == 1 then raw[|raw| - 1] else 0)
  {
    UnstuffAsWrittenPads(raw);
    PaddedFields(raw, |Cobs.Encode(raw)| - 1 - |raw|);
  }

  /** Zero bytes after a frame leave its length field alone and end up where the stored CRC is read. */
  lemma PaddedFields(raw: seq<byte>, k: nat)
    requires |raw| >= 4 && k > 0
    ensures ArduinoFrame.SizeField(raw + Zeros(k)) == ArduinoFrame.SizeField(raw)
    ensures ArduinoFrame.StoredCrc(raw + Zeros(k)) == (if k == 1 then raw[|raw| - 1] else 0)
  {
    var f := raw + Zeros(k);
    assert f[2] == raw[2] && f[3] == raw[3];
    assert f[|f| - 1] == 0;
    if k == 1 {
      assert f[|f| - 2] == raw[|raw| - 1];
    } else {
      assert f[|f| - 2] == Zeros(k)[k - 2] == 0;
    }
  }

  /** A stuffed buffer more than one byte longer than its decoding is handed on with zero bytes after the frame. */
  lemma PaddedUnstuff(enc: seq<byte>, raw: seq<byte>)
    requires Cobs.Decode(enc) == Some(raw) && |enc| > |raw| + 1
    ensures UnstuffAsWritten(enc) == Ok(raw + Zeros(|enc| - 1 - |raw|))
    ensures |UnstuffAsWritten(enc).value| > |raw|
  {
  }

  // ---------------------------------------------------------------- the frame path

  /** Overflow guard of `process_normal_byte`: a cursor that reached `MAX_DATA_LEN` resets the buffer, and nothing else changes. */
  function CheckOverflow(s: NormalState): (r: NormalState)
    ensures r.rx.idx < MaxDataLen
    ensures s.rx.idx < MaxDataLen ==> r == s
    ensures s.rx.idx >= MaxDataLen ==> r.rx == Reset()
    ensures r.started == s.started && r.isTriggered == s.isTriggered
  {
    if s.rx.idx >= MaxDataLen then s.(rx := Reset()) else s
  }

  /**
   * `process_normal_byte`: store the byte; a `0x00` either opens a frame
   * (when none is open), closes a non-empty one and processes it, or (a
   * second `0x00` with nothing between) does nothing; every `0x00` resets the
   * buffer. Any other byte advances the cursor, and a full buffer resets.
   */
  function NormalByte(env: Env, s: NormalState, b: byte): (r: Result<(NormalState, seq<Event>), Error>)
    ensures NormalValid(s) && r.Err? ==> b == 0 && s.started && s.rx.idx > 0
    ensures NormalValid(s) && r.Ok? ==> NormalValid(r.value.0)
    ensures r.Ok? ==> r.value.0.rx.idx < MaxDataLen
    ensures r.Ok? && b == 0 ==> r.value.0.rx == Reset()
    ensures r.Ok? && b == 0 ==> r.value.0.started == !(s.started && s.rx.idx > 0)
    ensures r.Ok? && b == 0 && !(s.started && s.rx.idx > 0) ==> r.value.0.isTriggered == s.isTriggered
    ensures r.Ok? && b != 0 ==>
      && r.value.0.started == s.started
      && r.value.0.isTriggered == s.isTriggered
      && r.value.1 == []
      && (NormalValid(s) && s.rx.idx + 1 < MaxDataLen ==>
            && r.value.0.rx.idx == s.rx.idx + 1
            && r.value.0.rx.buffer[..s.rx.idx + 1] == s.rx.buffer[..s.rx.idx] + [b]
            && r.value.0.rx.buffer[s.rx.idx + 1..] == s.rx.buffer[s.rx.idx + 1..])
      && (s.rx.idx + 1 >= MaxDataLen ==> r.value.0.rx == Reset())
    ensures r.Ok? ==> (r.value.1 != [] <==> b == 0 && s.started && s.rx.idx > 0)
    ensures b == 0 && s.started && 0 < s.rx.idx < |s.rx.buffer| ==>
      match ProcessWith(env, s.rx.buffer[..s.rx.idx], s.isTriggered)
      case Err(e) => r == Err(e)
      case Ok((msg, t)) => r == Ok((NormalState(Reset(), false, t.isTriggered), FrameEvents(msg, t)))
  {
    if s.rx.idx >= |s.rx.buffer| then Err(IndexOutOfBounds(s.rx.idx, |s.rx.buffer|))
    else
      var rx := Store(s.rx, b);
      if b == 0 then
        if !s.started then
          Ok((NormalState(Reset(), true, s.isTriggered), []))
        else if rx.idx > 0 then
          assert rx.buffer[..rx.idx] == s.rx.buffer[..s.rx.idx];
          match ProcessWith(env, rx.buffer[..rx.idx], s.isTriggered)
          case Err(e) => Err(e)
          case Ok((msg, t)) => Ok((NormalState(Reset(), false, t.isTriggered), FrameEvents(msg, t)))
        else
          Ok((NormalState(Reset(), true, s.isTriggered), []))
      else
        assert rx.buffer[..s.rx.idx + 1] == s.rx.buffer[..s.rx.idx] + [b];
        Ok((CheckOverflow(NormalState(rx.(idx := rx.idx + 1), s.started, s.isTriggered)), []))
  }

  /** Continues a run that produced `r` with the bytes `rest`, stopping at the first error. */
  function Continue(env: Env, r: Result<(NormalState, seq<Event>), Error>, rest: seq<byte>): Result<(NormalState, seq<Event>), Error>
    decreases |rest|, 2
  {
    match r
    case Err(e) => Err(e)
    case Ok((s1, ev1)) =>
      match NormalRun(env, s1, rest)
      case Err(e) => Err(e)
      case Ok((s2, ev2)) => Ok((s2, ev1 + ev2))
  }

  /** `process_normal_byte` applied to each byte in turn; `listen` returns at the first error. */
  function NormalRun(env: Env, s: NormalState, bytes: seq<byte>): (r: Result<(NormalState, seq<Event>), Error>)
    ensures NormalValid(s) && r.Ok? ==> NormalValid(r.value.0)
    decreases |bytes|, 1
  {
    if |bytes| == 0 then Ok((s, []))
    else Continue(env, NormalByte(env, s, bytes[0]), bytes[1..])
  }

  /** Running over `a + b` is running over `a`, then over `b`. */
  lemma {:induction false} NormalRunAppend(env: Env, s: NormalState, a: seq<byte>, b: seq<byte>)
    ensures NormalRun(env, s, a + b) == Continue(env, NormalRun(env, s, a), b)
    decreases |a|
  {
    if |a| == 0 {
      assert a + b == b;
      ContinueFromEmpty(env, s, b);
    } else {
      assert (a + b)[0] == a[0];
      assert (a + b)[1..] == a[1..] + b;
      assert NormalRun(env, s, a + b) == Continue(env, NormalByte(env, s, a[0]), a[1..] + b);
      assert NormalRun(env, s, a) == Continue(env, NormalByte(env, s, a[0]), a[1..]);
      match NormalByte(env, s, a[0])
      case Err(_) =>
      case Ok((s1, ev1)) =>
        NormalRunAppend(env, s1, a[1..], b);
        ContinueShift(env, s1, ev1, a[1..], b);
    }
  }

  /** Continuing the empty run over `b` is running over `b`. */
  lemma ContinueFromEmpty(env: Env, s: NormalState, b: seq<byte>)
    ensures NormalRun(env, s, b) == Continue(env, Ok((s, [])), b)
  {
    match NormalRun(env, s, b)
    case Err(_) =>
    case Ok((s2, ev2)) => assert [] + ev2 == ev2;
  }

  /** Events collected before a run over `x + b` come first, whether `b` is run together with `x` or after it. */
  lemma ContinueShift(env: Env, s1: NormalState, ev1: seq<Event>, x: seq<byte>, b: seq<byte>)
    requires NormalRun(env, s1, x + b) == Continue(env, NormalRun(env, s1, x), b)
    ensures Continue(env, Ok((s1, ev1)), x + b) == Continue(env, Continue(env, Ok((s1, ev1)), x), b)
  {
    match NormalRun(env, s1, x)
    case Err(_) =>
    case Ok((s2, ev2)) =>
      match NormalRun(env, s2, b)
      case Err(_) =>
      case Ok((s3, ev3)) => assert ev1 + (ev2 + ev3) == (ev1 + ev2) + ev3;
  }

  /** Non-zero bytes that fit in the buffer are appended to it and nothing else happens. */
  lemma {:induction false} Accumulate(env: Env, s: NormalState, xs: seq<byte>)
    requires NormalValid(s) && Cobs.NoZero(xs) && s.rx.idx + |xs| < MaxDataLen
    ensures var r := NormalRun(env, s, xs);
      && r.Ok?
      && r.value.1 == []
      && r.value.0.started == s.started
      && r.value.0.isTriggered == s.isTriggered
      && NormalValid(r.value.0)
      && r.value.0.rx.idx == s.rx.idx + |xs|
      && r.value.0.rx.buffer[..s.rx.idx + |xs|] == s.rx.buffer[..s.rx.idx] + xs
    decreases |xs|
  {
    if |xs| == 0 {
      assert s.rx.buffer[..s.rx.idx] + xs == s.rx.buffer[..s.rx.idx];
    } else {
      QuietByte(env, s, xs[0]);
      var s1 := NormalByte(env, s, xs[0]).value.0;
      Accumulate(env, s1, xs[1..]);
      QuietCons(env, s, xs);
      var s2 := NormalRun(env, s1, xs[1..]).value.0;
      BufferGrows(s.rx.buffer, s1.rx.buffer, s2.rx.buffer, s.rx.idx, xs);
    }
  }

  /** A non-zero byte that fits is appended to the buffer, and nothing else happens. */
  lemma QuietByte(env: Env, s: NormalState, b: byte)
    requires NormalValid(s) && b != 0 && s.rx.idx + 1 < MaxDataLen
    ensures var r := NormalByte(env, s, b);
      && r.Ok? && r.value.1 == []
      && r.value.0.started == s.started && r.value.0.isTriggered == s.isTriggered
      && NormalValid(r.value.0) && r.value.0.rx.idx == s.rx.idx + 1
      && r.value.0.rx.buffer[..s.rx.idx + 1] == s.rx.buffer[..s.rx.idx] + [b]
  {
  }

  /** A first byte that produces no event leaves the rest of the run to the state it made. */
  lemma QuietCons(env: Env, s: NormalState, xs: seq<byte>)
    requires |xs| > 0 && NormalByte(env, s, xs[0]).Ok? && NormalByte(env, s, xs[0]).value.1 == []
    ensures NormalRun(env, s, xs) == NormalRun(env, NormalByte(env, s, xs[0]).value.0, xs[1..])
  {
    var s1 := NormalByte(env, s, xs[0]).value.0;
    assert NormalRun(env, s, xs) == Continue(env, Ok((s1, [])), xs[1..]);
    ContinueFromEmpty(env, s1, xs[1..]);
  }

  /** Appending the first byte, then the others, appends them all. */
  lemma BufferGrows(b0: seq<byte>, b1: seq<byte>, b2: seq<byte>, i: nat, xs: seq<byte>)
    requires |xs| > 0 && i <= |b0| && i + 1 <= |b1| && i + |xs| <= |b2|
    requires b1[..i + 1] == b0[..i] + [xs[0]]
    requires b2[..i + |xs|] == b1[..i + 1] + xs[1..]
    ensures b2[..i + |xs|] == b0[..i] + xs
  {
    assert xs == [xs[0]] + xs[1..];
  }

  /**
   * A stuffed frame between two delimiters, received with an empty buffer,
   * is processed exactly once and leaves the path idle again.
   */
  lemma DeliverFrame(env: Env, s: NormalState, enc: seq<byte>)
    requires NormalValid(s) && s.rx.idx == 0
    requires Cobs.NoZero(enc) && 0 < |enc| < MaxDataLen
    ensures NormalRun(env, s, [0] + enc + [0]) ==
      match ProcessWith(env, enc, s.isTriggered)
      case Err(e) => Err(e)
      case Ok((msg, t)) => Ok((NormalState(Reset(), false, t.isTriggered), FrameEvents(msg, t)))
  {
    var s0 := NormalByte(env, s, 0).value.0;
    assert NormalByte(env, s, 0) == Ok((s0, []));
    assert NormalRun(env, s0, []) == Ok((s0, []));
    assert [0][0] == 0 && [0][1..] == [];
    assert NormalRun(env, s, [0]) == Continue(env, NormalByte(env, s, 0), []);
    var none: seq<Event> := [];
    assert none + none == none;
    assert Continue(env, Ok((s0, none)), []) == Ok((s0, none + none));
    assert NormalRun(env, s, [0]) == Ok((s0, []));
    Accumulate(env, s0, enc);
    var s1 := NormalRun(env, s0, enc).value.0;
    assert NormalRun(env, s0, enc) == Ok((s1, []));
    assert s1.rx.buffer[..|enc|] == enc;
    NormalRunAppend(env, s, [0], enc);
    assert NormalRun(env, s, [0] + enc) == Ok((s1, []));
    NormalRunAppend(env, s, [0] + enc, [0]);
    assert NormalRun(env, s1, [0]) == Continue(env, NormalByte(env, s1, 0), []);
    match ProcessWith(env, enc, s.isTriggered)
    case Err(e) =>
    case Ok((msg, t)) =>
      var s2 := NormalState(Reset(), false, t.isTriggered);
      assert NormalByte(env, s1, 0) == Ok((s2, FrameEvents(msg, t)));
      assert NormalRun(env, s2, []) == Ok((s2, []));
      assert FrameEvents(msg, t) + [] == FrameEvents(msg, t);
      assert [] + FrameEvents(msg, t) == FrameEvents(msg, t);
  }

  // ---------------------------------------------------------------- the [DEBUG] detector

  /** The in-band marker `[DEBUG]` that switches the listener to debug text. */
  const Marker: seq<byte> := [0x5B, 0x44, 0x45, 0x42, 0x55, 0x47, 0x5D]

  /** A partial match has matched at least the `[` and not yet the whole marker. */
  predicate ValidMode(m: ReceiveState) {
    m.CheckingDebug? ==> 1 <= m.matched < |Marker|
  }

  /** The marker bytes held back by a partial match. */
  function Pending(m: ReceiveState): (p: seq<byte>)
    requires ValidMode(m)
    ensures |p| < |Marker|
  {
    if m.CheckingDebug? then Marker[..m.matched] else []
  }

  /** What one byte does to the detector: its new mode and debug line, the bytes it passes to the frame path, and a finished debug line. */
  datatype Detection = Detection(mode: ReceiveState, line: string, fed: seq<byte>, completed: Option<string>)

  /** Bytes 0x20..0x7e, the ones a debug line keeps. */
  predicate Printable(b: byte) {
    0x20 <= b <= 0x7e
  }

  /**
   * The match arms of `listen`. In `Normal`, `[` starts a match and any
   * other byte goes to the frame path. In `CheckingDebug(n)`, the next marker
   * byte extends the match (the seventh enters `Debug`); any other byte ends
   * it and the matched prefix, then the byte, go to the frame path. In
   * `Debug`, CR or LF completes the line and ESC drops it (both return to
   * `Normal`), printable bytes extend it and the rest are ignored.
   */
  function Detect(mode: ReceiveState, line: string, b: byte): (d: Detection)
    requires ValidMode(mode)
    ensures ValidMode(d.mode)
    ensures mode != Debug && d.mode != Debug ==> d.fed + Pending(d.mode) == Pending(mode) + [b]
    ensures mode != Debug && d.mode == Debug ==> Pending(mode) + [b] == Marker && d.fed == []
    ensures mode == Debug ==> d.fed == []
    ensures d.completed.Some? ==> mode == Debug && (b == 0x0a || b == 0x0d) && d.completed.value == line
    ensures mode == Debug && (b == 0x0a || b == 0x0d || b == 0x1b) ==> d.mode == Normal && d.line == ""
    ensures mode == Debug && !(b == 0x0a || b == 0x0d || b == 0x1b) ==>
      d.mode == Debug && d.line == line + (if Printable(b) then [b as char] else [])
    ensures mode != Debug ==> d.line == line
    ensures mode != Debug && Pending(mode) + [b] == Marker ==> d.mode == Debug && d.fed == []
    ensures mode != Debug && Pending(mode) + [b] < Marker ==>
      d.mode == CheckingDebug(|Pending(mode)| + 1) && d.fed == []
    ensures mode != Debug && !(Pending(mode) + [b] <= Marker) ==>
      d.mode == Normal && d.fed == Pending(mode) + [b]
    ensures d.completed.Some? <==> mode == Debug && (b == 0x0a || b == 0x0d)
    ensures mode == Debug && (b == 0x0a || b == 0x0d) ==> d.completed == Some(line)
  {
    match mode
    case Normal =>
      if b == Marker[0] then Detection(CheckingDebug(1), line, [], None)
      else Detection(Normal, line, [b], None)
    case CheckingDebug(n) =>
      if n < |Marker| && b == Marker[n] then
        assert Marker[..n] + [b] == Marker[..n + 1];
        Detection(if n + 1 == |Marker| then Debug else CheckingDebug(n + 1), line, [], None)
      else
        Detection(Normal, line, Marker[..n] + [b], None)
    case Debug =>
      if b == 0x0a || b == 0x0d then Detection(Normal, "", [], Some(line))
      else if b == 0x1b then Detection(Normal, "", [], None)
      else if Printable(b) then Detection(Debug, line + [b as char], [], None)
      else Detection(Debug, line, [], None)
  }

  /** The detector over a byte sequence: its final mode and line, everything it fed, the lines it completed, and whether it reached `Debug`. */
  datatype DetectorRun = DetectorRun(mode: ReceiveState, line: string, fed: seq<byte>, lines: seq<string>, sawDebug: bool)

  function DetectAll(mode: ReceiveState, line: string, bytes: seq<byte>): (r: DetectorRun)
    requires ValidMode(mode)
    ensures ValidMode(r.mode)
    ensures mode != Debug && !r.sawDebug ==> r.mode != Debug
    ensures mode != Debug && !r.sawDebug ==> r.fed + Pending(r.mode) == Pending(mode) + bytes
    decreases |bytes|
  {
    if |bytes| == 0 then DetectorRun(mode, line, [], [], false)
    else
      var d := Detect(mode, line, bytes[0]);
      var rest := DetectAll(d.mode, d.line, bytes[1..]);
      assert mode != Debug && d.mode != Debug && !rest.sawDebug ==>
        d.fed + rest.fed + Pending(rest.mode) == Pending(mode) + bytes by {
        if mode != Debug && d.mode != Debug && !rest.sawDebug {
          FedCompose(Pending(mode), bytes, d.fed, Pending(d.mode), rest.fed, Pending(rest.mode));
        }
      }
      DetectorRun(rest.mode, rest.line, d.fed + rest.fed,
                  (if d.completed.Some? then [d.completed.value] else []) + rest.lines,
                  d.mode == Debug || rest.sawDebug)
  }

  /**
   * Bookkeeping of a run: if one byte turns held-back bytes `p0` into fed
   * bytes `fed1` and held-back bytes `p1`, and the rest of the input turns
   * `p1` into `fed2` and `p2`, then all of it turns `p0` into `fed1 + fed2` and `p2`.
   */
  lemma FedCompose(p0: seq<byte>, bytes: seq<byte>, fed1: seq<byte>, p1: seq<byte>, fed2: seq<byte>, p2: seq<byte>)
    requires |bytes| > 0
    requires fed1 + p1 == p0 + [bytes[0]]
    requires fed2 + p2 == p1 + bytes[1..]
    ensures fed1 + fed2 + p2 == p0 + bytes
  {
    calc {
      fed1 + fed2 + p2;
      fed1 + (fed2 + p2);
      fed1 + (p1 + bytes[1..]);
      (fed1 + p1) + bytes[1..];
      (p0 + [bytes[0]]) + bytes[1..];
      { assert bytes == [bytes[0]] + bytes[1..]; }
      p0 + bytes;
    }
  }

  /** The marker starts at position `i` of `s`. */
  predicate MarkerAt(s: seq<byte>, i: int) {
    0 <= i <= |s| - |Marker| && s[i..i + |Marker|] == Marker
  }

  /** `s` holds the marker somewhere. */
  predicate ContainsMarker(s: seq<byte>) {
    exists i :: 0 <= i <= |s| - |Marker| && MarkerAt(s, i)
  }

  /** Removing bytes from the front never creates a marker. */
  lemma SuffixWithoutMarker(s: seq<byte>, j: nat)
    requires j <= |s| && !ContainsMarker(s)
    ensures !ContainsMarker(s[j..])
  {
    if ContainsMarker(s[j..]) {
      var i :| 0 <= i <= |s[j..]| - |Marker| && MarkerAt(s[j..], i);
      assert s[i + j..i + j + |Marker|] == s[j..][i..i + |Marker|];
      assert MarkerAt(s, i + j);
    }
  }

  /** One byte enters `Debug` only when it completes a marker at the very start of what the detector holds. */
  lemma DebugOnlyOnMarker(mode: ReceiveState, line: string, bytes: seq<byte>)
    requires ValidMode(mode) && mode != Debug && |bytes| > 0
    ensures Detect(mode, line, bytes[0]).mode == Debug ==> MarkerAt(Pending(mode) + bytes, 0)
  {
    if Detect(mode, line, bytes[0]).mode == Debug {
      assert (Pending(mode) + bytes)[0..|Marker|] == Pending(mode) + [bytes[0]];
    }
  }

  /** The detector reaches `Debug` only on a complete marker: input without one never leaves the frame path. */
  lemma {:induction false} NoMarkerNoDebug(mode: ReceiveState, line: string, bytes: seq<byte>)
    requires ValidMode(mode) && mode != Debug
    requires !ContainsMarker(Pending(mode) + bytes)
    ensures !DetectAll(mode, line, bytes).sawDebug
    decreases |bytes|
  {
    if |bytes| > 0 {
      var d := Detect(mode, line, bytes[0]);
      NoMarkerAfterStep(mode, line, bytes);
      NoMarkerNoDebug(d.mode, d.line, bytes[1..]);
    }
  }

  /** A byte taken by the detector from input without a marker leaves it outside `Debug`, holding input without a marker. */
  lemma NoMarkerAfterStep(mode: ReceiveState, line: string, bytes: seq<byte>)
    requires ValidMode(mode) && mode != Debug && |bytes| > 0
    requires !ContainsMarker(Pending(mode) + bytes)
    ensures var d := Detect(mode, line, bytes[0]);
      d.mode != Debug && !ContainsMarker(Pending(d.mode) + bytes[1..])
  {
    var whole := Pending(mode) + bytes;
    var d := Detect(mode, line, bytes[0]);
    DebugOnlyOnMarker(mode, line, bytes);
    assert d.mode != Debug;
    StepRemainder(Pending(mode), bytes, d.fed, Pending(d.mode));
    SuffixWithoutMarker(whole, |d.fed|);
  }

  /** What the detector still holds after one byte is what it held and read, less what it fed on. */
  lemma StepRemainder(p0: seq<byte>, bytes: seq<byte>, fed: seq<byte>, p1: seq<byte>)
    requires |bytes| > 0 && fed + p1 == p0 + [bytes[0]]
    ensures |fed| <= |p0 + bytes| && p1 + bytes[1..] == (p0 + bytes)[|fed|..]
  {
    assert p0 + bytes == fed + p1 + bytes[1..] by {
      assert bytes == [bytes[0]] + bytes[1..];
    }
  }

  /** In `Normal` mode, bytes without a `[` pass straight through to the frame path. */
  lemma {:induction false} NoBracketPassesThrough(line: string, bytes: seq<byte>)
    requires forall i :: 0 <= i < |bytes| ==> bytes[i] != Marker[0]
    ensures DetectAll(Normal, line, bytes) == DetectorRun(Normal, line, bytes, [], false)
    decreases |bytes|
  {
    if |bytes| > 0 {
      NoBracketPassesThrough(line, bytes[1..]);
      assert [bytes[0]] + bytes[1..] == bytes;
    }
  }

  /**
   * `"[[DEBUG]"` holds the marker but does not enter `Debug`: the `[` that
   * breaks a partial match is not tried as the start of a new one.
   */
  lemma RestartNotDetected()
    ensures ContainsMarker([0x5B] + Marker)
    ensures DetectAll(Normal, "", [0x5B] + Marker).mode == Normal
    ensures DetectAll(Normal, "", [0x5B] + Marker).fed == [0x5B] + Marker
  {
    var bytes: seq<byte> := [0x5B] + Marker;
    assert bytes[1..1 + |Marker|] == Marker;
    assert MarkerAt(bytes, 1);
    OpenThen("", Marker);
    var tail := Marker[1..];
    MarkerOpensOnce();
    MismatchThenPlain(1, "", Marker[0], tail);
    assert Marker[..1] + [Marker[0]] + tail == [Marker[0]] + Marker;
  }

  /** The marker's only `[` is its first byte. */
  lemma MarkerOpensOnce()
    ensures Marker == [Marker[0]] + Marker[1..] && Marker[0] == 0x5B
    ensures forall i :: 0 <= i < |Marker[1..]| ==> Marker[1..][i] != Marker[0]
  {
  }

  /** The rest of the marker completes a partial match: the detector enters `Debug` and feeds nothing on. */
  lemma {:induction false} MatchCompletes(n: nat, line: string)
    requires 1 <= n < |Marker|
    ensures var r := DetectAll(CheckingDebug(n), line, Marker[n..]);
      r.mode == Debug && r.fed == [] && r.sawDebug && r.line == line && r.lines == []
    decreases |Marker| - n
  {
    var bytes := Marker[n..];
    assert bytes[0] == Marker[n] && bytes[1..] == Marker[n + 1..];
    if n + 1 < |Marker| {
      MatchCompletes(n + 1, line);
    }
  }

  /** The whole marker, from `Normal`, switches the detector to `Debug` without feeding a byte to the frame receiver. */
  lemma MarkerEntersDebug(line: string)
    ensures var r := DetectAll(Normal, line, Marker);
      r.mode == Debug && r.fed == [] && r.sawDebug && r.line == line && r.lines == []
  {
    MarkerOpensOnce();
    OpenThen(line, Marker[1..]);
    MatchCompletes(1, line);
  }

  /** From `Normal`, a `[` only opens a match: the run goes on as from `CheckingDebug(1)`. */
  lemma OpenThen(line: string, rest: seq<byte>)
    ensures DetectAll(Normal, line, [Marker[0]] + rest) == DetectAll(CheckingDebug(1), line, rest)
  {
    var bytes := [Marker[0]] + rest;
    assert bytes[0] == Marker[0] && bytes[1..] == rest;
    var r := DetectAll(CheckingDebug(1), line, rest);
    assert [] + r.fed == r.fed && [] + r.lines == r.lines;
  }

  /**
   * A byte that breaks a partial match ends it for good: the held-back
   * prefix and the byte go on, and input without `[` follows them unchanged.
   */
  lemma MismatchThenPlain(n: nat, line: string, b: byte, tail: seq<byte>)
    requires 1 <= n < |Marker| && b != Marker[n]
    requires forall i :: 0 <= i < |tail| ==> tail[i] != Marker[0]
    ensures DetectAll(CheckingDebug(n), line, [b] + tail) == DetectorRun(Normal, line, Marker[..n] + [b] + tail, [], false)
  {
    NoBracketPassesThrough(line, tail);
    assert ([b] + tail)[0] == b && ([b] + tail)[1..] == tail;
  }

  // ---------------------------------------------------------------- the listener

  /** `listen`'s state: the frame path, the detector mode, the debug line being collected, and the debug lines completed so far. */
  datatype ListenState = ListenState(normal: NormalState, mode: ReceiveState, line: string, lines: seq<string>)

  /** The state `listen` starts in, after `Giga::new`. */
  function InitialListen(): (ls: ListenState)
    ensures NormalValid(ls.normal) && ls.normal.rx.idx == 0 && !ls.normal.started && ValidMode(ls.mode)
    ensures ls.mode == Normal && ls.normal.rx == Reset() && !ls.normal.isTriggered
    ensures ls.line == "" && ls.lines == []
  {
    ListenState(NormalState(Reset(), false, false), Normal, "", [])
  }

  /** One byte read by `listen`. */
  function ListenStep(env: Env, ls: ListenState, b: byte): (r: Result<(ListenState, seq<Event>), Error>)
    requires ValidMode(ls.mode)
    ensures r.Ok? ==> ValidMode(r.value.0.mode)
  {
    var d := Detect(ls.mode, ls.line, b);
    match NormalRun(env, ls.normal, d.fed)
    case Err(e) => Err(e)
    case Ok((n, evs)) =>
      Ok((ListenState(n, d.mode, d.line, ls.lines + (if d.completed.Some? then [d.completed.value] else [])), evs))
  }

  /** `listen` over a byte sequence, returning at the first error. */
  function ListenAll(env: Env, ls: ListenState, bytes: seq<byte>): (r: Result<(ListenState, seq<Event>), Error>)
    requires ValidMode(ls.mode)
    ensures r.Ok? ==> ValidMode(r.value.0.mode)
    decreases |bytes|
  {
    if |bytes| == 0 then Ok((ls, []))
    else
      match ListenStep(env, ls, bytes[0])
      case Err(e) => Err(e)
      case Ok((ls1, ev1)) =>
        match ListenAll(env, ls1, bytes[1..])
        case Err(e) => Err(e)
        case Ok((ls2, ev2)) => Ok((ls2, ev1 + ev2))
  }

  /**
   * The listener is the detector followed by the frame path: its frame
   * events and errors are those of `process_normal_byte` run over exactly
   * the bytes the detector passed on.
   */
  lemma {:induction false} ListenFactors(env: Env, ls: ListenState, bytes: seq<byte>)
    requires ValidMode(ls.mode)
    ensures var dr := DetectAll(ls.mode, ls.line, bytes);
      ListenAll(env, ls, bytes) ==
        match NormalRun(env, ls.normal, dr.fed)
        case Err(e) => Err(e)
        case Ok((n, evs)) => Ok((ListenState(n, dr.mode, dr.line, ls.lines + dr.lines), evs))
    decreases |bytes|
  {
    var dr := DetectAll(ls.mode, ls.line, bytes);
    if |bytes| == 0 {
      assert ls.lines + [] == ls.lines;
    } else {
      var d := Detect(ls.mode, ls.line, bytes[0]);
      var rest := DetectAll(d.mode, d.line, bytes[1..]);
      NormalRunAppend(env, ls.normal, d.fed, rest.fed);
      match NormalRun(env, ls.normal, d.fed)
      case Err(_) =>
      case Ok((n1, ev1)) =>
        var done := if d.completed.Some? then [d.completed.value] else [];
        var ls1 := ListenState(n1, d.mode, d.line, ls.lines + done);
        ListenFactors(env, ls1, bytes[1..]);
        assert ls1.lines + rest.lines == ls.lines + dr.lines;
        match NormalRun(env, n1, rest.fed)
        case Err(_) =>
        case Ok((n2, ev2)) =>
    }
  }

  /** Delimiting a stuffed frame adds no marker: the delimiters are zero bytes, and the marker has none. */
  lemma DelimitAddsNoMarker(enc: seq<byte>)
    requires Cobs.NoZero(enc) && !ContainsMarker(enc)
    ensures !ContainsMarker(ArduinoFrame.Delimit(enc))
  {
    var bytes := ArduinoFrame.Delimit(enc);
    if ContainsMarker(bytes) {
      var i :| 0 <= i <= |bytes| - |Marker| && MarkerAt(bytes, i);
      assert bytes[i..i + |Marker|][0] == bytes[i];
      assert bytes[i..i + |Marker|][|Marker| - 1] == bytes[i + |Marker| - 1];
      assert 0 < i && i + |Marker| < |bytes|;
      assert enc[i - 1..i - 1 + |Marker|] == bytes[i..i + |Marker|];
      assert MarkerAt(enc, i - 1);
    }
  }

  /**
   * In `Normal` mode, input that holds no marker and ends in a byte that no
   * partial match ends with is passed on whole and leaves the detector in
   * `Normal` with its line untouched.
   */
  lemma PassesThrough(line: string, bytes: seq<byte>)
    requires !ContainsMarker(bytes) && |bytes| > 0 && bytes[|bytes| - 1] == 0
    ensures DetectAll(Normal, line, bytes) == DetectorRun(Normal, line, bytes, [], false)
  {
    assert Pending(Normal) + bytes == bytes;
    NoMarkerNoDebug(Normal, line, bytes);
    var dr := DetectAll(Normal, line, bytes);
    assert dr.fed + Pending(dr.mode) == bytes;
    assert dr.fed == bytes;
    DetectorKeepsLine(Normal, line, bytes);
  }

  /**
   * A delimited stuffed frame that does not contain the debug marker,
   * received by an idle listener, is processed exactly once and leaves the
   * listener idle in `Normal` mode.
   */
  lemma ListenDeliversFrame(env: Env, ls: ListenState, enc: seq<byte>)
    requires NormalValid(ls.normal) && ls.normal.rx.idx == 0 && ls.mode == Normal
    requires Cobs.NoZero(enc) && 0 < |enc| < MaxDataLen && !ContainsMarker(enc)
    ensures ListenAll(env, ls, ArduinoFrame.Delimit(enc)) ==
      match ProcessWith(env, enc, ls.normal.isTriggered)
      case Err(e) => Err(e)
      case Ok((msg, t)) =>
        Ok((ListenState(NormalState(Reset(), false, t.isTriggered), Normal, ls.line, ls.lines), FrameEvents(msg, t)))
  {
    var bytes := ArduinoFrame.Delimit(enc);
    DelimitAddsNoMarker(enc);
    PassesThrough(ls.line, bytes);
    ListenFactors(env, ls, bytes);
    DeliverFrame(env, ls.normal, enc);
    assert bytes == [0] + enc + [0];
    assert ls.lines + [] == ls.lines;
  }

  /**
   * End to end over the COBS link: a message built by `build_cobs_frame` and
   * sent between delimiters to a freshly started listener is received as the
   * same action, command, payload and CRC, provided its stuffed bytes do not
   * happen to spell the debug marker and fit the 1024-byte receive buffer.
   * The decode step as written pads its output to one byte less than the
   * stuffed buffer, which also restores a frame the builder cut short of its
   * final code byte; the corrected step needs the frame whole, or a CRC whose
   * high byte is non-zero so that nothing but the final code byte was lost.
   */
  lemma CobsLinkRoundTrip(env: Env, action: Action, command: Command, payload: seq<byte>)
    requires ArduinoFrame.BuildCobsFrame(action, command, payload).Ok?
    requires |ArduinoFrame.BuildCobsFrame(action, command, payload).value.encoded| < MaxDataLen
    requires env.cbor(payload).Some?
    requires !ContainsMarker(ArduinoFrame.BuildCobsFrame(action, command, payload).value.encoded)
    requires var f := ArduinoFrame.BuildCobsFrame(action, command, payload).value;
      !env.corrected || f.encodedSize == |f.encoded| || f.crc >= 0x100
    ensures var f := ArduinoFrame.BuildCobsFrame(action, command, payload).value;
      var r := ListenAll(env, InitialListen(), ArduinoFrame.Delimit(f.encoded));
      && r.Ok?
      && |r.value.1| > 0
      && r.value.1[0] == Decoded(Message(action, command, ToLe(|payload|), |payload|, payload,
                                         env.cbor(payload).value, ToLe(f.crc), f.crc))
      && r.value.0.normal.rx == Reset() && !r.value.0.normal.started && r.value.0.mode == Normal
  {
    var f := ArduinoFrame.BuildCobsFrame(action, command, payload).value;
    var (raw, crc) := ArduinoFrame.BuildCobsRaw(action, command, payload);
    ArduinoFrame.DecodeBuildRoundTrip(action, command, payload, env.cbor);
    ArduinoFrame.DecodeMessageAgrees(raw, env.cbor);
    if f.encodedSize == |f.encoded| {
      UnstuffAgrees(f.encoded);
    } else {
      PaddingRestoresFrame(f.encoded, raw);
      assert raw[|raw| - 1] == crc / 0x100;
    }
    ListenDeliversFrame(env, InitialListen(), f.encoded);
  }

  /**
   * A stuffed frame that lost its final code byte decodes to the frame less
   * its trailing zero; the decode step as written pads that back to
   * `len - 1` bytes and so hands on the whole frame.
   */
  lemma PaddingRestoresFrame(cobsBuf: seq<byte>, raw: seq<byte>)
    requires |raw| > 0 && |cobsBuf| == |raw| + 1
    requires Cobs.Decode(cobsBuf) == Some(Cobs.DropFinalZero(raw))
    ensures UnstuffAsWritten(cobsBuf) == Ok(raw)
  {
    var d := Cobs.DropFinalZero(raw);
    PadsBack(raw);
    assert UnstuffAsWritten(cobsBuf) == Ok(d + Zeros(|raw| - |d|));
  }

  /** Padding the frame less its trailing zero back to the frame's length gives the frame. */
  lemma PadsBack(raw: seq<byte>)
    requires |raw| > 0
    ensures var d := Cobs.DropFinalZero(raw);
      |d| <= |raw| && d + Zeros(|raw| - |d|) == raw
  {
    if raw[|raw| - 1] == 0 {
      assert Zeros(1) == [0];
      assert raw == raw[..|raw| - 1] + [0];
    } else {
      assert raw + Zeros(0) == raw;
    }
  }

  /** Outside `Debug` the detector neither changes the debug line nor completes one. */
  lemma {:induction false} DetectorKeepsLine(mode: ReceiveState, line: string, bytes: seq<byte>)
    requires ValidMode(mode) && mode != Debug
    requires !DetectAll(mode, line, bytes).sawDebug
    ensures DetectAll(mode, line, bytes).line == line
    ensures DetectAll(mode, line, bytes).lines == []
    decreases |bytes|
  {
    if |bytes| > 0 {
      var d := Detect(mode, line, bytes[0]);
      DetectorKeepsLine(d.mode, d.line, bytes[1..]);
    }
  }
}

=== FILE: bytes.dfy ===
/**
 * Fixed-width integers and the little-endian byte conversions that both
 * wire framings use for their length and CRC fields.
 */
module Bytes {

  /** Rust `u16`. */
  type u16 = x: int | 0 <= x < 0x1_0000

  /** Rust `u8`: every byte on the wire. */
  type byte = x: int | 0 <= x < 0x100

  /** Rust `u32`. */
  type u32 = x: int | 0 <= x < 0x1_0000_0000

  /** Rust `n as u16` on a `usize`: keeps the low 16 bits. */
  function AsU16(n: nat): (r: u16)
    ensures n < 0x1_0000 ==> r == n
    ensures exists k: nat {:trigger k * 0x1_0000} :: n == k * 0x1_0000 + r
  {
    var k := n / 0x1_0000;
    assert n == k * 0x1_0000 + n % 0x1_0000;
    n % 0x1_0000
  }

  /** `n` zero bytes, the state of a freshly allocated `[0u8; n]` or `vec![0; n]`. */
  function Zeros(n: nat): (r: seq<byte>)
    ensures |r| == n
    ensures forall i :: 0 <= i < n ==> r[i] == 0
  {
    seq(n, _ => 0)
  }

  /** `u16::from_le_bytes([lo, hi])`. */
  function FromLe(lo: byte, hi: byte): (r: u16)
    ensures r % 256 == lo && r / 256 == hi
  {
    lo + 256 * hi
  }

  /** `u16::to_le_bytes`: low byte first. */
  function ToLe(n: u16): (r: seq<byte>)
    ensures |r| == 2
    ensures FromLe(r[0], r[1]) == n
  {
    [n % 256, n / 256]
  }

  /** The other half of the round trip: two bytes survive decoding and re-encoding. */
  lemma ToLeFromLe(lo: byte, hi: byte)
    ensures ToLe(FromLe(lo, hi)) == [lo, hi]
  {
  }

  /** Little-endian encoding is injective: distinct values give distinct byte pairs. */
  lemma ToLeInjective(m: u16, n: u16)
    requires ToLe(m) == ToLe(n)
    ensures m == n
  {
    assert FromLe(ToLe(m)[0], ToLe(m)[1]) == m;
  }
}

=== FILE: cbor.dfy ===
/**
 * The part of `serde_cbor::Value` the receivers inspect. CBOR decoding
 * itself (RFC 8949) is an external algorithm; the receivers take it as a
 * `Decoder` parameter.
 */
module Cbor {
  import opened Bytes
  import opened Wrappers

  /** A decoded CBOR data item (floats and tags are not represented). */
  datatype Value =
    | Null
    | Bool(b: bool)
    | Integer(i: int)
    | Bytes(bytes: seq<byte>)
    | Text(s: string)
    | Array(items: seq<Value>)
    | Map(entries: map<Value, Value>)

  /** A payload decoded as `HashMap<String, Value>`. */
  type Payload = map<string, Value>

  /** `serde_cbor::from_slice::<HashMap<String, Value>>`: `None` when the bytes are not such a map. */
  type Decoder = seq<byte> -> Option<Payload>
}

=== FILE: cobs.dfy ===
/**
 * Consistent Overhead Byte Stuffing (Cheshire and Baker), with the block
 * conventions of the `cobs` crate that both sides of the serial link use:
 * a block ends at a zero byte or after 254 non-zero bytes, each block is
 * preceded by a code byte (its length plus one, or 0xFF for a full block
 * with no implied zero), and a final code byte is always written.
 */
module Cobs {
  import opened Bytes
  import opened Wrappers

  /** The longest run of non-zero bytes a single block carries. */
  const MaxRun := 254

  predicate NoZero(s: seq<byte>) {
    forall i :: 0 <= i < |s| ==> s[i] != 0
  }

  /** The length of the run of non-zero bytes starting at `i`, capped so that the block holds at most `MaxRun`. */
  function RunFrom(data: seq<byte>, i: nat): (k: nat)
    requires i <= |data| && i <= MaxRun
    requires NoZero(data[..i])
    ensures i <= k <= |data| && k <= MaxRun
    ensures NoZero(data[..k])
    ensures k < |data| && k < MaxRun ==> data[k] == 0
    decreases |data| - i
  {
    if i == |data| || i == MaxRun || data[i] == 0 then i
    else
      assert data[..i + 1] == data[..i] + [data[i]];
      RunFrom(data, i + 1)
  }

  /** The number of data bytes the first block of `data` carries. */
  function BlockLen(data: seq<byte>): (k: nat)
    ensures k <= |data| && k <= MaxRun
    ensures NoZero(data[..k])
    ensures k < |data| && k < MaxRun ==> data[k] == 0
  {
    RunFrom(data, 0)
  }

  /** `cobs::encode`: the stuffed form of `data`, without frame delimiters. */
  function Encode(data: seq<byte>): (r: seq<byte>)
    ensures NoZero(r)
    ensures |r| >= |data| + 1
    ensures |data| < MaxRun ==> |r| == |data| + 1
    decreases |data|
  {
    var k := BlockLen(data);
    if k == |data| && k < MaxRun then
      [k + 1] + data
    else if k < MaxRun then
      [k + 1] + data[..k] + Encode(data[k + 1..])
    else
      [0xFF] + data[..MaxRun] + Encode(data[MaxRun..])
  }

  /**
   * `cobs::decode`: the data a stuffed buffer stands for, or `None` when a
   * code byte is zero, a block runs past the end, or a block holds a zero.
   */
  function Decode(enc: seq<byte>): (r: Option<seq<byte>>)
    ensures |enc| > 0 && r.Some? ==> |r.value| < |enc|
    decreases |enc|
  {
    if |enc| == 0 then Some([])
    else
      var c := enc[0];
      if c == 0 || c > |enc| || !NoZero(enc[1..c]) then None
      else
        var block := enc[1..c];
        var rest := enc[c..];
        if |rest| == 0 then Some(block)
        else
          match Decode(rest)
          case None => None
          case Some(tail) => Some(if c == 0xFF then block + tail else block + [0] + tail)
  }

  /** Decoding a block: its code byte, its data, then whatever follows. */
  lemma DecodeBlock(block: seq<byte>, rest: seq<byte>)
    requires |block| < 0xFF && NoZero(block)
    ensures var c := |block| + 1;
      Decode([c] + block + rest) ==
        if |rest| == 0 then Some(block)
        else match Decode(rest)
          case None => None
          case Some(tail) => Some(if c == 0xFF then block + tail else block + [0] + tail)
  {
    var enc := [|block| + 1] + block + rest;
    assert enc[1..|block| + 1] == block;
    assert enc[|block| + 1..] == rest;
  }

  /** Decoding inverts encoding, for every input. */
  lemma {:induction false} DecodeEncode(data: seq<byte>)
    ensures Decode(Encode(data)) == Some(data)
    decreases |data|
  {
    var k := BlockLen(data);
    if k == |data| && k < MaxRun {
      DecodeBlock(data, []);
      assert Encode(data) == [k + 1] + data + [];
    } else if k < MaxRun {
      DecodeEncode(data[k + 1..]);
      ShortBlockStep(data, k);
    } else {
      DecodeEncode(data[MaxRun..]);
      FullBlockStep(data);
    }
  }

  /** A block that ends at a zero: the zero comes back between the block and the rest. */
  lemma ShortBlockStep(data: seq<byte>, k: nat)
    requires k == BlockLen(data) && k < MaxRun && k < |data|
    requires Decode(Encode(data[k + 1..])) == Some(data[k + 1..])
    ensures Decode(Encode(data)) == Some(data)
  {
    var tail := Encode(data[k + 1..]);
    assert |tail| > 0 && k + 1 != 0xFF;
    assert Encode(data) == [k + 1] + data[..k] + tail;
    DecodeBlock(data[..k], tail);
    SplitAtZero(data, k);
  }

  /** A sequence with a zero at `k` is what precedes it, the zero, and what follows it. */
  lemma SplitAtZero(data: seq<byte>, k: nat)
    requires k < |data| && data[k] == 0
    ensures data == data[..k] + [0] + data[k + 1..]
  {
  }

  /** A full block of 254 bytes: no zero comes back between the block and the rest. */
  lemma FullBlockStep(data: seq<byte>)
    requires BlockLen(data) == MaxRun
    requires Decode(Encode(data[MaxRun..])) == Some(data[MaxRun..])
    ensures Decode(Encode(data)) == Some(data)
  {
    var tail := Encode(data[MaxRun..]);
    assert Encode(data) == [0xFF] + data[..MaxRun] + tail;
    DecodeBlock(data[..MaxRun], tail);
    assert data == data[..MaxRun] + data[MaxRun..];
  }

  /** A run of 254 non-zero bytes at the front costs one code byte more than a short frame. */
  lemma FullBlockOverhead(data: seq<byte>)
    requires |data| >= MaxRun && NoZero(data[..MaxRun])
    ensures |Encode(data)| >= |data| + 2
  {
  }

  /**
   * A run of 254 non-zero bytes right after a zero also costs an extra code
   * byte: the run is a full block wherever the blocks before it end.
   */
  lemma {:induction false} RunAfterZeroOverhead(data: seq<byte>, j: nat)
    requires j < |data| && data[j] == 0
    requires |data| >= j + 1 + MaxRun && NoZero(data[j + 1..j + 1 + MaxRun])
    ensures |Encode(data)| >= |data| + 2
    decreases |data|
  {
    var k := BlockLen(data);
    assert k <= j;
    if k < MaxRun {
      var rest := data[k + 1..];
      if k == j {
        assert rest[..MaxRun] == data[j + 1..j + 1 + MaxRun];
        FullBlockOverhead(rest);
      } else {
        assert rest[j - k - 1] == data[j];
        assert rest[j - k..j - k + MaxRun] == data[j + 1..j + 1 + MaxRun];
        RunAfterZeroOverhead(rest, j - k - 1);
      }
    } else {
      var rest := data[MaxRun..];
      assert rest[j - MaxRun] == data[j];
      assert rest[j - MaxRun + 1..j - MaxRun + 1 + MaxRun] == data[j + 1..j + 1 + MaxRun];
      RunAfterZeroOverhead(rest, j - MaxRun);
    }
  }

  /** Stuffing adds one code byte, plus at most one more per full 254-byte block. */
  lemma {:induction false} EncodeBound(data: seq<byte>)
    ensures |Encode(data)| <= |data| + 1 + |data| / MaxRun
    decreases |data|
  {
    var k := BlockLen(data);
    if k == |data| && k < MaxRun {
    } else if k < MaxRun {
      var rest := data[k + 1..];
      EncodeBound(rest);
      DivMonotone(|rest|, |data|);
    } else {
      var rest := data[MaxRun..];
      EncodeBound(rest);
      assert |rest| / MaxRun + 1 == |data| / MaxRun;
    }
  }

  lemma DivMonotone(a: nat, b: nat)
    requires a <= b
    ensures a / MaxRun <= b / MaxRun
  {
  }

  /**
   * Whether the last block of `Encode(data)` carries no data, so that the
   * stuffed form ends in the code byte 0x01. The encoder writes that byte
   * only when it finishes, and only if it fits the output buffer. It is the
   * case when the data ends in a zero or on a full 254-byte block.
   */
  predicate EndsEmptyBlock(data: seq<byte>)
    decreases |data|
  {
    var k := BlockLen(data);
    if k == |data| && k < MaxRun then k == 0
    else if k < MaxRun then EndsEmptyBlock(data[k + 1..])
    else EndsEmptyBlock(data[MaxRun..])
  }

  /** 254 non-zero bytes at the front make a full first block. */
  lemma FullBlockLen(data: seq<byte>)
    requires |data| >= MaxRun && NoZero(data[..MaxRun])
    ensures BlockLen(data) == MaxRun
  {
    assert data[..MaxRun][..RunFrom(data, 0)] == data[..RunFrom(data, 0)];
  }

  /** Data ending in a zero leaves an empty last block. */
  lemma {:induction false} ZeroEndEmpty(data: seq<byte>)
    requires |data| > 0 && data[|data| - 1] == 0
    ensures EndsEmptyBlock(data)
    decreases |data|
  {
    var k := BlockLen(data);
    if k < MaxRun && k + 1 < |data| {
      var rest := data[k + 1..];
      assert rest[|rest| - 1] == data[|data| - 1];
      ZeroEndEmpty(rest);
    } else if k == MaxRun {
      var rest := data[MaxRun..];
      assert |rest| > 0;
      assert rest[|rest| - 1] == data[|data| - 1];
      ZeroEndEmpty(rest);
    }
  }

  /** Fewer than 254 bytes ending in a non-zero byte leave a non-empty last block. */
  lemma {:induction false} ShortNonZeroEnd(data: seq<byte>)
    requires 0 < |data| < MaxRun && data[|data| - 1] != 0
    ensures !EndsEmptyBlock(data)
    decreases |data|
  {
    var k := BlockLen(data);
    if k < |data| {
      var rest := data[k + 1..];
      assert |rest| > 0 && rest[|rest| - 1] == data[|data| - 1];
      ShortNonZeroEnd(rest);
    }
  }

  /** The blocks before a zero byte do not decide whether the last block is empty. */
  lemma {:induction false} EmptyBlockAfterZero(data: seq<byte>, j: nat)
    requires j < |data| && data[j] == 0
    ensures EndsEmptyBlock(data) == EndsEmptyBlock(data[j + 1..])
    decreases |data|
  {
    var m := BlockBeforeZero(data, j);
    var rest := data[m..];
    if m <= j {
      assert rest[j - m] == data[j];
      EmptyBlockAfterZero(rest, j - m);
      assert rest[j - m + 1..] == data[j + 1..];
    }
  }

  /** After a zero and a full block of 254 non-zero bytes, only the bytes that follow decide `EndsEmptyBlock`. */
  lemma EmptyBlockAfterRun(data: seq<byte>, j: nat)
    requires j < |data| && data[j] == 0
    requires |data| >= j + 1 + MaxRun && NoZero(data[j + 1..j + 1 + MaxRun])
    ensures EndsEmptyBlock(data) == EndsEmptyBlock(data[j + 1 + MaxRun..])
  {
    EmptyBlockAfterZero(data, j);
    var body := data[j + 1..];
    assert body[..MaxRun] == data[j + 1..j + 1 + MaxRun];
    FullBlockLen(body);
    assert body[MaxRun..] == data[j + 1 + MaxRun..];
  }

  /** A zero, a full block, then fewer than 254 bytes ending in a non-zero byte leave a non-empty last block. */
  lemma NonZeroEndAfterRun(data: seq<byte>, j: nat)
    requires j < |data| && data[j] == 0
    requires j + 1 + MaxRun < |data| < j + 1 + 2 * MaxRun && NoZero(data[j + 1..j + 1 + MaxRun])
    requires data[|data| - 1] != 0
    ensures !EndsEmptyBlock(data)
  {
    EmptyBlockAfterRun(data, j);
    var tail := data[j + 1 + MaxRun..];
    assert tail[|tail| - 1] == data[|data| - 1];
    ShortNonZeroEnd(tail);
  }

  /** With a zero at `j`, the first block ends by `j + 1`, at `m`, and the rest decides `EndsEmptyBlock`. */
  lemma BlockBeforeZero(data: seq<byte>, j: nat) returns (m: nat)
    requires j < |data| && data[j] == 0
    ensures 0 < m <= j + 1 && EndsEmptyBlock(data) == EndsEmptyBlock(data[m..])
  {
    var k := BlockLen(data);
    NoZeroPrefix(data, k);
    m := if k < MaxRun then k + 1 else MaxRun;
  }

  lemma NoZeroPrefix(s: seq<byte>, k: nat)
    requires k <= |s| && NoZero(s[..k])
    ensures forall i :: 0 <= i < k ==> s[i] != 0
  {
    assert forall i :: 0 <= i < k ==> s[..k][i] == s[i];
  }

  /**
   * The stuffed form of data whose last block is empty ends in the code byte
   * 0x01. Without that byte it decodes to the data less its trailing zero, or
   * to the data itself when the data ends on a full block.
   */
  lemma {:induction false} DecodeWithoutFinalCode(data: seq<byte>)
    requires |data| > 0 && EndsEmptyBlock(data)
    ensures DropsFinalCode(Encode(data), data)
    decreases |data|
  {
    var k, m := FirstBlock(data);
    var rest := data[m..];
    if |rest| > 0 {
      DecodeWithoutFinalCode(rest);
    }
    DropFinalCodeStep(data, k, m, rest, Encode(rest), Encode(data));
  }

  /** `enc` ends in the code byte 0x01, and without it decodes to `data` less a trailing zero. */
  predicate DropsFinalCode(enc: seq<byte>, data: seq<byte>)
    requires |data| > 0
  {
    |enc| > 0 && enc[|enc| - 1] == 1 && Decode(enc[..|enc| - 1]) == Some(DropFinalZero(data))
  }

  /**
   * The first block of data whose last block is empty: `k` data bytes, ended
   * by a zero (`m == k + 1`) or full (`m == k == 254`), with more blocks after it.
   */
  lemma FirstBlock(data: seq<byte>) returns (k: nat, m: nat)
    requires |data| > 0 && EndsEmptyBlock(data)
    ensures k <= MaxRun && k <= m <= |data| && NoZero(data[..k])
    ensures (k < MaxRun && m == k + 1 && data[k] == 0) || (k == MaxRun && m == k)
    ensures Encode(data) == [k + 1] + data[..k] + Encode(data[m..])
    ensures m < |data| ==> EndsEmptyBlock(data[m..])
    ensures m == |data| ==> Encode(data[m..]) == [1]
  {
    k := BlockLen(data);
    m := if k < MaxRun then k + 1 else MaxRun;
    EmptyBlockStep(data);
    EncodeStep(data);
  }

  /** Data whose last block is empty is longer than its first block, and what follows that block ends in an empty block too. */
  lemma EmptyBlockStep(data: seq<byte>)
    requires |data| > 0 && EndsEmptyBlock(data)
    ensures var k := BlockLen(data);
      var m := if k < MaxRun then k + 1 else MaxRun;
      && !(k == |data| && k < MaxRun)
      && m <= |data|
      && (m < |data| ==> EndsEmptyBlock(data[m..]))
  {
  }

  /** One step of `DecodeWithoutFinalCode`, from what it says about the data after the first block. */
  lemma DropFinalCodeStep(data: seq<byte>, k: nat, m: nat, rest: seq<byte>, er: seq<byte>, enc: seq<byte>)
    requires k <= MaxRun && k <= m <= |data| && NoZero(data[..k]) && |data| > 0
    requires (k < MaxRun && m == k + 1 && data[k] == 0) || (k == MaxRun && m == k)
    requires rest == data[m..] && enc == [k + 1] + data[..k] + er
    requires |rest| == 0 ==> er == [1]
    requires |rest| > 0 ==> |er| > 1 && DropsFinalCode(er, rest)
    ensures DropsFinalCode(enc, data)
  {
    if |rest| > 0 {
      var block, gap := data[..k], data[k..m];
      if k < MaxRun {
        assert gap == [0];
      }
      assert data == block + gap + rest;
      InnerBlockDropped(block, gap, rest, er, enc);
    } else {
      LastBlockDropped(data, k, m, enc);
    }
  }

  /** Unless the data fits in one last block, its stuffed form is the first block's code and data, then the rest stuffed. */
  lemma EncodeStep(data: seq<byte>)
    requires !(BlockLen(data) == |data| && BlockLen(data) < MaxRun)
    ensures var k := BlockLen(data);
      var m := if k < MaxRun then k + 1 else MaxRun;
      m <= |data| && Encode(data) == [k + 1] + data[..k] + Encode(data[m..])
  {
  }

  /** The data less its trailing zero, if it has one. */
  function DropFinalZero(data: seq<byte>): seq<byte> {
    if |data| > 0 && data[|data| - 1] == 0 then data[..|data| - 1] else data
  }

  /** A first block, ended by a zero or full, that is all the data: without the final code only the block is left. */
  lemma LastBlockDropped(data: seq<byte>, k: nat, m: nat, enc: seq<byte>)
    requires k <= MaxRun && k <= m == |data| && NoZero(data[..k]) && |data| > 0
    requires (k < MaxRun && m == k + 1 && data[k] == 0) || (k == MaxRun && m == k)
    requires enc == [k + 1] + data[..k] + [1]
    ensures enc[|enc| - 1] == 1 && Decode(enc[..|enc| - 1]) == Some(DropFinalZero(data))
  {
    var block := data[..k];
    assert ([k + 1] + block + [1])[..k + 1] == [k + 1] + block + [];
    DecodeBlock(block, []);
    if k < MaxRun {
      assert data[..|data| - 1] == block;
    } else {
      assert data == block;
    }
  }

  /** A first block, ended by a zero or full, before more data: it decodes in front of the shortened rest. */
  lemma InnerBlockDropped(block: seq<byte>, gap: seq<byte>, rest: seq<byte>, er: seq<byte>, enc: seq<byte>)
    requires |block| <= MaxRun && NoZero(block) && |rest| > 0
    requires (|block| < MaxRun && gap == [0]) || (|block| == MaxRun && gap == [])
    requires |er| > 1 && er[|er| - 1] == 1
    requires Decode(er[..|er| - 1]) == Some(DropFinalZero(rest))
    requires enc == [|block| + 1] + block + er
    ensures enc[|enc| - 1] == 1 && Decode(enc[..|enc| - 1]) == Some(DropFinalZero(block + gap + rest))
  {
    var d := DropFinalZero(rest);
    DropAfterBlock(block, er, d, enc);
    DropFinalZeroAppend(block + gap, rest);
    if |block| < MaxRun {
      assert block + gap + d == block + [0] + d;
    } else {
      assert block + gap == block;
    }
  }

  /** Decoding a block followed by the stuffed rest, less its final code byte. */
  lemma DropAfterBlock(block: seq<byte>, er: seq<byte>, d: seq<byte>, enc: seq<byte>)
    requires |block| < 0xFF && NoZero(block) && |er| > 0
    requires |er| > 1 ==> Decode(er[..|er| - 1]) == Some(d)
    requires enc == [|block| + 1] + block + er
    ensures enc[|enc| - 1] == er[|er| - 1]
    ensures Decode(enc[..|enc| - 1]) == Some(if |er| == 1 then block else if |block| + 1 == 0xFF then block + d else block + [0] + d)
  {
    var t := er[..|er| - 1];
    assert enc[..|enc| - 1] == [|block| + 1] + block + t;
    DecodeBlock(block, t);
  }

  /** A trailing zero is dropped from the end of the last piece. */
  lemma DropFinalZeroAppend(front: seq<byte>, rest: seq<byte>)
    requires |rest| > 0
    ensures DropFinalZero(front + rest) == front + DropFinalZero(rest)
  {
    assert (front + rest)[|front + rest| - 1] == rest[|rest| - 1];
    assert (front + rest)[..|front + rest| - 1] == front + rest[..|rest| - 1];
  }

  /**
   * `cobs::encode` into an output buffer of `size` bytes, as the `cobs` crate
   * does it: a block's code byte is written when the block closes, and the
   * final one when the encoder finishes. A data byte or a closed block's code
   * past the buffer panics (`None`); the final code byte is skipped when it
   * does not fit. The result is the buffer and the stuffed length the
   * encoder reports, which counts the final code byte either way.
   */
  function EncodeInto(data: seq<byte>, size: nat): (r: Option<(seq<byte>, nat)>)
    ensures var enc := Encode(data);
      r.None? <==> |enc| > size + 1 || (|enc| == size + 1 && !EndsEmptyBlock(data))
  {
    var enc := Encode(data);
    var needed := if EndsEmptyBlock(data) then |enc| - 1 else |enc|;
    if needed > size then None
    else if size >= |enc| then Some((enc + Zeros(size - |enc|), |enc|))
    else Some((enc[..size], |enc|))
  }

  /** What a buffer that held the whole stuffed form contains, and what one a byte short of it contains. */
  lemma EncodeIntoContents(data: seq<byte>, size: nat, buf: seq<byte>, n: nat, enc: seq<byte>)
    requires enc == Encode(data) && EncodeInto(data, size) == Some((buf, n))
    ensures |buf| == size && n == |enc|
    ensures size >= n ==> buf[..n] == enc && Decode(buf[..n]) == Some(data)
    ensures size < n ==>
      && size + 1 == n
      && EndsEmptyBlock(data)
      && enc == buf + [1]
      && NoZero(buf)
      && Decode(buf) == Some(DropFinalZero(data))
  {
    DecodeEncode(data);
    if size >= n {
      assert buf[..n] == enc;
    } else if |data| == 0 {
      assert enc == [1];
    } else {
      BufferLacksFinalCode(data, enc, buf);
    }
  }

  /** The stuffed form of non-empty data with an empty last block, less its final code byte. */
  lemma BufferLacksFinalCode(data: seq<byte>, enc: seq<byte>, buf: seq<byte>)
    requires |data| > 0 && EndsEmptyBlock(data) && enc == Encode(data) && buf == enc[..|enc| - 1]
    ensures enc == buf + [1] && NoZero(buf) && Decode(buf) == Some(DropFinalZero(data))
  {
    DecodeWithoutFinalCode(data);
    var last := enc[|enc| - 1];
    assert enc == buf + [last];
  }
}

=== FILE: crc16.dfy ===
/**
 * CRC-16/USB as the `crc` crate's `CRC_16_USB` parameters define it:
 * width 16, polynomial 0x8005 processed bit-reflected (0xA001), initial
 * value 0xFFFF, reflected input and output, final XOR 0xFFFF.
 */
module Crc16 {
  import opened Bytes

  /** The polynomial 0x8005 with its bits reversed, for least-significant-bit-first processing. */
  const ReflectedPoly: bv16 := 0xA001

  /** One bit step of the reflected shift register. */
  function Bit(c: bv16): bv16 {
    if c & 1 == 1 then (c >> 1) ^ ReflectedPoly else c >> 1
  }

  /** Feeds one byte, least significant bit first. */
  function Update(crc: bv16, b: byte): bv16 {
    var c := crc ^ (b as bv16);
    Bit(Bit(Bit(Bit(Bit(Bit(Bit(Bit(c))))))))
  }

  /** The register after feeding `data` in order, starting from `crc`. */
  function Register(crc: bv16, data: seq<byte>): bv16
    decreases |data|
  {
    if |data| == 0 then crc else Register(Update(crc, data[0]), data[1..])
  }

  /** Feeding `a` and then `b` leaves the register that feeding `a + b` does. */
  lemma {:induction false} RegisterAppend(crc: bv16, a: seq<byte>, b: seq<byte>)
    ensures Register(crc, a + b) == Register(Register(crc, a), b)
    decreases |a|
  {
    if |a| > 0 {
      assert (a + b)[0] == a[0];
      assert (a + b)[1..] == a[1..] + b;
      RegisterAppend(Update(crc, a[0]), a[1..], b);
    } else {
      assert a + b == b;
    }
  }

  /** `CRC16.checksum(data)`. */
  function Checksum(data: seq<byte>): u16 {
    Finish(Register(0xFFFF, data))
  }

  /** The reflected output with the final XOR applied. */
  function Finish(reg: bv16): u16 {
    (reg ^ 0xFFFF) as int
  }

  /** The checksum may be computed in pieces, carrying the register across any split of the input. */
  lemma ChecksumStreams(data: seq<byte>, k: nat)
    requires k <= |data|
    ensures Checksum(data) == Finish(Register(Register(0xFFFF, data[..k]), data[k..]))
  {
    RegisterAppend(0xFFFF, data[..k], data[k..]);
    assert data[..k] + data[k..] == data;
  }

  /** The catalogue check value of CRC-16/USB: the ASCII digits "123456789" give 0xB4C8. */
  lemma CheckValue()
    ensures Checksum([0x31, 0x32, 0x33, 0x34, 0x35, 0x36, 0x37, 0x38, 0x39]) == 0xB4C8
  {
    var digits: seq<byte> := [0x31, 0x32, 0x33, 0x34, 0x35, 0x36, 0x37, 0x38, 0x39];
    assert Update(0xFFFF, 0x31) == 0x947E;
    assert Update(0x947E, 0x32) == 0xF595;
    assert Update(0xF595, 0x33) == 0x7A75;
    assert Update(0x7A75, 0x34) == 0x30BA;
    assert Update(0x30BA, 0x35) == 0xA471;
    assert Update(0xA471, 0x36) == 0x32E4;
    assert Update(0x32E4, 0x37) == 0x9D73;
    assert Update(0x9D73, 0x38) == 0x37DD;
    assert Update(0x37DD, 0x39) == 0x4B37;
    assert Register(0x4B37, digits[9..]) == 0x4B37;
  }
}

=== FILE: giga.dfy ===
/**
 * The host side of the start-byte link (src/main.rs): the two copies of
 * `build_frame`, and the byte-at-a-time parser in `GigaCommunicate::listen`
 * that walks a cursor through start byte, CMD byte, Command byte, length,
 * payload and CRC.
 */
module Giga {
  import opened Bytes
  import opened Wrappers
  import opened Cbor
  import opened Model
  import opened Crc16
  import opened RxBuffer
  import opened StartFrame
  import ArduinoFrame

  /** The free `build_frame`: the start-byte frame for `cmd`, `command` and `payload`. */
  function BuildFrame(cmd: Action, command: Command, payload: seq<byte>): (r: seq<byte>)
    ensures IsStartFrame(r, ActionByte(cmd), CommandByte(command), payload)
  {
    var n := |payload|;
    var frame := [StartByte, ActionByte(cmd), CommandByte(command)] + ToLe(AsU16(n)) + payload;
    assert (frame + ToLe(Checksum(frame[3..])))[3..5 + n] == frame[3..];
    frame + ToLe(Checksum(frame[3..]))
  }

  /**
   * `GigaCommunicate::build_frame`, pushing the fields one after another:
   * it lays out the same frame as the free function.
   */
  method CommunicateBuildFrame(cmd: Action, command: Command, payload: seq<byte>) returns (frame: seq<byte>)
    ensures IsStartFrame(frame, ActionByte(cmd), CommandByte(command), payload)
    ensures frame == BuildFrame(cmd, command, payload)
  {
    var n := |payload|;
    frame := [StartByte];
    frame := frame + [ActionByte(cmd)];
    frame := frame + [CommandByte(command)];
    frame := frame + ToLe(AsU16(n));
    frame := frame + payload;
    assert |frame| == n + 5 && frame[5..] == payload;
    var crc := Checksum(frame[3..]);
    var body := frame;
    frame := frame + ToLe(crc);
    assert frame[3..5 + n] == body[3..];
    ToLeFromLe(frame[3], frame[4]);
    LayoutDeterminesFrame(frame, BuildFrame(cmd, command, payload), ActionByte(cmd), CommandByte(command), payload);
  }

  /** The host's `build_frame` and the COBS-link program's legacy `build_frame` produce the same bytes. */
  lemma BuildersAgree(cmd: Action, command: Command, payload: seq<byte>)
    ensures BuildFrame(cmd, command, payload) == ArduinoFrame.BuildFrame(cmd, command, payload).0
  {
    LayoutDeterminesFrame(BuildFrame(cmd, command, payload), ArduinoFrame.BuildFrame(cmd, command, payload).0,
                          ActionByte(cmd), CommandByte(command), payload);
  }

  // ---------------------------------------------------------------- the parser

  /** The largest payload `listen` accepts: `MAX_DATA_LEN - 7`. */
  const MaxPayload: nat := MaxDataLen - 7

  /** The parser's state: the receive buffer and cursor, and the `cmd` and `command` locals of `listen`. */
  datatype GigaState = GigaState(rx: Rx, cmd: Action, command: Command)

  /** What a frame that passed the CRC and CBOR checks delivers. */
  datatype Received = Received(cmd: Action, command: Command, payload: Payload, crc: u16)

  /** The state `listen` starts in. */
  function Initial(): (s: GigaState)
    ensures Valid(s.rx) && s.rx.idx == 0
    ensures s.rx == Reset() && s.cmd == Action.NONE && s.command == Command.NONE
  {
    GigaState(Reset(), Action.NONE, Command.NONE)
  }

  /** The state after `reset()`: `cmd` and `command` are locals of `listen` and survive it. */
  function Restart(s: GigaState): (r: GigaState)
    ensures Valid(r.rx) && r.rx == Reset() && r.cmd == s.cmd && r.command == s.command
  {
    s.(rx := Reset())
  }

  /** The cursor moved one byte on, with the byte stored. */
  function Advance(s: GigaState, rx: Rx): GigaState {
    s.(rx := rx.(idx := rx.idx + 1))
  }

  /**
   * One byte read by `listen`, as written. The byte is stored at the cursor
   * (a cursor past the buffer panics), then the cursor's value picks the
   * arm; after a frame's second CRC byte passes both checks the cursor is
   * left one past the frame.
   */
  function Step(cbor: Decoder, s: GigaState, b: byte): (r: Result<(GigaState, Option<Received>), Error>)
    requires Valid(s.rx)
    ensures r.Ok? ==> Valid(r.value.0.rx)
    ensures r.Ok? ==> r.value.0.rx.idx == s.rx.idx + 1 || r.value.0.rx == Reset()
    ensures r.Err? <==>
      || s.rx.idx >= MaxDataLen
      || (s.rx.idx == 4 && FromLe(s.rx.lenBytes[0], b) > MaxPayload)
      || (s.rx.idx == 6 + s.rx.payloadSize && s.rx.idx >= 5 &&
          (FromLe(s.rx.crcBytes[0], b) != Checksum(s.rx.buffer[3..5 + s.rx.payloadSize])
           || cbor(s.rx.buffer[5..5 + s.rx.payloadSize]).None?))
  {
    if s.rx.idx >= |s.rx.buffer| then Err(IndexOutOfBounds(s.rx.idx, |s.rx.buffer|))
    else
      var rx := Store(s.rx, b);
      var i := rx.idx;
      var ps := rx.payloadSize;
      if i == 0 then
        if b != StartByte then Ok((Restart(s), None)) else Ok((Advance(s, rx), None))
      else if i == 1 then
        match ActionFromByte(b)
        case Ok(c) => Ok((Advance(s.(cmd := c), rx), None))
        case Err(_) => Ok((Restart(s), None))
      else if i == 2 then
        Ok((Advance(s.(command := CommandFromByte(b)), rx), None))
      else if i == 3 then
        Ok((Advance(s, rx.(lenBytes := rx.lenBytes[0 := b])), None))
      else if i == 4 then
        var lenBytes := rx.lenBytes[1 := b];
        var size := FromLe(lenBytes[0], lenBytes[1]);
        if size > MaxPayload then Err(PayloadTooLarge(size))
        else Ok((Advance(s, rx.(lenBytes := lenBytes, payloadSize := size)), None))
      else if i < 5 + ps then
        Ok((Advance(s, rx), None))
      else if i < 7 + ps then
        var crcBytes := rx.crcBytes[i - (5 + ps) := b];
        var next := Advance(s, rx.(crcBytes := crcBytes));
        if i == 6 + ps then
          assert rx.buffer[3..5 + ps] == s.rx.buffer[3..5 + ps];
          assert rx.buffer[5..5 + ps] == s.rx.buffer[5..5 + ps];
          var crc := FromLe(crcBytes[0], crcBytes[1]);
          var computed := Checksum(rx.buffer[3..5 + ps]);
          if crc != computed then Err(CrcMismatch(computed, crc))
          else
            match cbor(rx.buffer[5..5 + ps])
            case None => Err(CborDecode)
            case Some(p) => Ok((next, Some(Received(s.cmd, s.command, p, crc))))
        else
          Ok((next, None))
      else
        Ok((Restart(s), None))
  }

  /**
   * The header arms: at idx 0 only the start byte advances; at idx 1 a
   * valid CMD byte is recorded and advances, anything else resets; at idx 2
   * every byte is taken as the command.
   */
  lemma StepHeader(cbor: Decoder, s: GigaState, b: byte)
    requires Valid(s.rx)
    ensures var r := Step(cbor, s, b);
      && (s.rx.idx == 0 ==> r.Ok? && (b == StartByte <==> r.value.0.rx.idx == 1))
      && (s.rx.idx == 1 ==> r.Ok? && (ActionFromByte(b).Ok? <==> r.value.0.rx.idx == 2))
      && (s.rx.idx == 1 && r.Ok? && r.value.0.rx.idx == 2 ==> r.value.0.cmd == ActionFromByte(b).value)
      && (s.rx.idx == 2 ==> r.Ok? && r.value.0.rx.idx == 3 && r.value.0.command == CommandFromByte(b))
  {
  }

  /**
   * A frame is delivered only by its second CRC byte, with the `cmd` and
   * `command` recorded from the header, the decoded payload, and the stored
   * CRC, which equals the CRC over the length field and the payload.
   */
  lemma StepDelivers(cbor: Decoder, s: GigaState, b: byte)
    requires Valid(s.rx)
    ensures var r := Step(cbor, s, b);
      r.Ok? && r.value.1.Some? ==>
        && s.rx.idx >= 5 && s.rx.idx == 6 + s.rx.payloadSize
        && r.value.1.value == Received(s.cmd, s.command, cbor(s.rx.buffer[5..5 + s.rx.payloadSize]).value, FromLe(s.rx.crcBytes[0], b))
        && r.value.1.value.crc == Checksum(s.rx.buffer[3..5 + s.rx.payloadSize])
        && r.value.0.rx.idx == s.rx.idx + 1
  {
  }

  /**
   * The cursor stays within the frame the length field announced, and the
   * announced payload fits the buffer; so the cursor stays inside the buffer.
   */
  predicate Sane(s: GigaState) {
    Valid(s.rx) && s.rx.payloadSize <= MaxPayload && s.rx.idx <= 6 + s.rx.payloadSize
  }

  /** One byte read by `listen`, corrected: a completed frame also resets the parser. */
  function StepFixed(cbor: Decoder, s: GigaState, b: byte): (r: Result<(GigaState, Option<Received>), Error>)
    requires Valid(s.rx)
    ensures r.Ok? ==> Valid(r.value.0.rx)
    ensures Sane(s) && r.Ok? ==> Sane(r.value.0)
    ensures Sane(s) && r.Err? ==> !r.error.IndexOutOfBounds?
    ensures r.Ok? && r.value.1.Some? ==> r.value.0.rx == Reset()
    ensures Step(cbor, s, b).Err? <==> r.Err?
    ensures r.Ok? ==> r.value.1 == Step(cbor, s, b).value.1
  {
    match Step(cbor, s, b)
    case Err(e) => Err(e)
    case Ok((s1, got)) =>
      if got.Some? then Ok((Restart(s1), got))
      else Ok((s1, got))
  }

  /** The step `listen` takes: as written, or corrected. */
  function StepWith(fixed: bool, cbor: Decoder, s: GigaState, b: byte): (r: Result<(GigaState, Option<Received>), Error>)
    requires Valid(s.rx)
    ensures r.Ok? ==> Valid(r.value.0.rx)
  {
    if fixed then StepFixed(cbor, s, b) else Step(cbor, s, b)
  }

  /** The frames received so far, once more. */
  function Collect(got: Option<Received>): seq<Received> {
    if got.Some? then [got.value] else []
  }

  /** Continues a run that produced `r` with the bytes `rest`, stopping at the first error. */
  function Continue(fixed: bool, cbor: Decoder, r: Result<(GigaState, seq<Received>), Error>, rest: seq<byte>): Result<(GigaState, seq<Received>), Error>
    requires r.Ok? ==> Valid(r.value.0.rx)
    decreases |rest|, 2
  {
    match r
    case Err(e) => Err(e)
    case Ok((s1, got1)) =>
      match Run(fixed, cbor, s1, rest)
      case Err(e) => Err(e)
      case Ok((s2, got2)) => Ok((s2, got1 + got2))
  }

  /** `listen` over a byte sequence, returning at the first error. */
  function Run(fixed: bool, cbor: Decoder, s: GigaState, bytes: seq<byte>): (r: Result<(GigaState, seq<Received>), Error>)
    requires Valid(s.rx)
    ensures r.Ok? ==> Valid(r.value.0.rx)
    decreases |bytes|, 1
  {
    if |bytes| == 0 then Ok((s, []))
    else
      var r1 := match StepWith(fixed, cbor, s, bytes[0])
        case Err(e) => Err(e)
        case Ok((s1, got)) => Ok((s1, Collect(got)));
      Continue(fixed, cbor, r1, bytes[1..])
  }

  /** Running over `a + b` is running over `a`, then over `b`. */
  lemma {:induction false} RunAppend(fixed: bool, cbor: Decoder, s: GigaState, a: seq<byte>, b: seq<byte>)
    requires Valid(s.rx)
    ensures Run(fixed, cbor, s, a + b) == Continue(fixed, cbor, Run(fixed, cbor, s, a), b)
    decreases |a|
  {
    if |a| == 0 {
      assert a + b == b;
      match Run(fixed, cbor, s, b)
      case Err(_) =>
      case Ok((s2, got2)) => assert [] + got2 == got2;
    } else {
      assert (a + b)[0] == a[0];
      assert (a + b)[1..] == a[1..] + b;
      match StepWith(fixed, cbor, s, a[0])
      case Err(_) =>
      case Ok((s1, got)) =>
        var got1 := Collect(got);
        RunAppend(fixed, cbor, s1, a[1..], b);
        match Run(fixed, cbor, s1, a[1..])
        case Err(_) =>
        case Ok((s2, got2)) =>
          match Run(fixed, cbor, s2, b)
          case Err(_) =>
          case Ok((s3, got3)) => assert got1 + (got2 + got3) == (got1 + got2) + got3;
    }
  }

  /** Running over one byte is taking one step. */
  lemma RunOne(fixed: bool, cbor: Decoder, s: GigaState, b: byte)
    requires Valid(s.rx)
    ensures Run(fixed, cbor, s, [b]) ==
      match StepWith(fixed, cbor, s, b)
      case Err(e) => Err(e)
      case Ok((s1, got)) => Ok((s1, Collect(got)))
  {
    assert [b][0] == b && [b][1..] == [];
    match StepWith(fixed, cbor, s, b)
    case Err(_) =>
    case Ok((s1, got)) =>
      assert Run(fixed, cbor, s1, []) == Ok((s1, []));
      assert Collect(got) + [] == Collect(got);
  }

  // ---------------------------------------------------------------- receiving a frame

  /** A header byte the parser accepts: the cursor moves on and the field it belongs to is recorded. */
  lemma HeaderStep(cbor: Decoder, s: GigaState, b: byte)
    requires Valid(s.rx) && s.rx.idx < 5
    requires s.rx.idx == 0 ==> b == StartByte
    requires s.rx.idx == 1 ==> ActionFromByte(b).Ok?
    requires s.rx.idx == 4 ==> FromLe(s.rx.lenBytes[0], b) <= MaxPayload
    ensures var r := Step(cbor, s, b);
      && r.Ok? && r.value.1.None?
      && r.value.0.rx.idx == s.rx.idx + 1
      && r.value.0.rx.buffer == s.rx.buffer[s.rx.idx := b]
      && r.value.0.cmd == (if s.rx.idx == 1 then ActionFromByte(b).value else s.cmd)
      && r.value.0.command == (if s.rx.idx == 2 then CommandFromByte(b) else s.command)
      && r.value.0.rx.lenBytes[0] == (if s.rx.idx == 3 then b else s.rx.lenBytes[0])
      && r.value.0.rx.payloadSize == (if s.rx.idx == 4 then FromLe(s.rx.lenBytes[0], b) else s.rx.payloadSize)
  {
  }

  /** A step that delivers nothing just hands the rest of the input to the next state. */
  lemma SilentCons(fixed: bool, cbor: Decoder, t: GigaState, bytes: seq<byte>)
    requires Valid(t.rx) && |bytes| > 0
    requires Step(cbor, t, bytes[0]).Ok? && Step(cbor, t, bytes[0]).value.1.None?
    ensures Run(fixed, cbor, t, bytes) == Run(fixed, cbor, Step(cbor, t, bytes[0]).value.0, bytes[1..])
  {
    var t1 := Step(cbor, t, bytes[0]).value.0;
    assert StepWith(fixed, cbor, t, bytes[0]) == Ok((t1, None));
    match Run(fixed, cbor, t1, bytes[1..])
    case Err(_) =>
    case Ok((t2, got2)) => assert [] + got2 == got2;
  }

  /** The five header bytes of a start-byte frame take a reset parser to the first payload byte. */
  lemma HeaderSteps(fixed: bool, cbor: Decoder, s: GigaState, frame: seq<byte>)
    requires s.rx == Reset() && |frame| >= 5
    requires frame[0] == StartByte && ActionFromByte(frame[1]).Ok? && FromLe(frame[3], frame[4]) <= MaxPayload
    ensures exists s5: GigaState ::
      && Valid(s5.rx) && s5.rx.idx == 5
      && Run(fixed, cbor, s, frame) == Run(fixed, cbor, s5, frame[5..])
      && s5.rx.buffer[..5] == frame[..5]
      && s5.cmd == ActionFromByte(frame[1]).value && s5.command == CommandFromByte(frame[2])
      && s5.rx.payloadSize == FromLe(frame[3], frame[4])
  {
    var s3 := OpeningSteps(fixed, cbor, s, frame);
    HeaderStep(cbor, s3, frame[3]);
    var s4 := Step(cbor, s3, frame[3]).value.0;
    SilentCons(fixed, cbor, s3, frame[3..]);
    HeaderStep(cbor, s4, frame[4]);
    var s5 := Step(cbor, s4, frame[4]).value.0;
    SilentCons(fixed, cbor, s4, frame[4..]);
    assert frame[3..][1..] == frame[4..] && frame[4..][1..] == frame[5..];
    assert forall i :: 0 <= i < 5 ==> s5.rx.buffer[i] == frame[i] by {
      assert forall i :: 0 <= i < 3 ==> s3.rx.buffer[..3][i] == frame[..3][i];
    }
    assert s5.rx.buffer[..5] == frame[..5];
  }

  /** The start byte, the CMD byte and the command byte take a reset parser to the length field. */
  lemma OpeningSteps(fixed: bool, cbor: Decoder, s: GigaState, frame: seq<byte>) returns (s3: GigaState)
    requires s.rx == Reset() && |frame| >= 3
    requires frame[0] == StartByte && ActionFromByte(frame[1]).Ok?
    ensures Valid(s3.rx) && s3.rx.idx == 3
    ensures Run(fixed, cbor, s, frame) == Run(fixed, cbor, s3, frame[3..])
    ensures s3.rx.buffer[..3] == frame[..3]
    ensures s3.cmd == ActionFromByte(frame[1]).value && s3.command == CommandFromByte(frame[2])
  {
    HeaderStep(cbor, s, frame[0]);
    var s1 := Step(cbor, s, frame[0]).value.0;
    SilentCons(fixed, cbor, s, frame);
    HeaderStep(cbor, s1, frame[1]);
    var s2 := Step(cbor, s1, frame[1]).value.0;
    SilentCons(fixed, cbor, s1, frame[1..]);
    HeaderStep(cbor, s2, frame[2]);
    s3 := Step(cbor, s2, frame[2]).value.0;
    SilentCons(fixed, cbor, s2, frame[2..]);
    assert frame[1..][1..] == frame[2..] && frame[2..][1..] == frame[3..];
    assert s3.rx.buffer[..3] == frame[..3];
  }

  /** A payload byte is stored and the cursor moves on. */
  lemma PayloadStep(cbor: Decoder, t: GigaState, b: byte)
    requires Valid(t.rx) && 5 <= t.rx.idx < 5 + t.rx.payloadSize && t.rx.payloadSize <= MaxPayload
    ensures Step(cbor, t, b) == Ok((t.(rx := t.rx.(buffer := t.rx.buffer[t.rx.idx := b], idx := t.rx.idx + 1)), None))
  {
  }

  /** The payload bytes take the parser to the first CRC byte, storing each. */
  lemma {:induction false} PayloadSteps(fixed: bool, cbor: Decoder, t: GigaState, frame: seq<byte>, n: nat)
    requires Valid(t.rx) && |frame| == n + 7 && n <= MaxPayload
    requires 5 <= t.rx.idx <= 5 + n && t.rx.payloadSize == n
    requires t.rx.buffer[..t.rx.idx] == frame[..t.rx.idx]
    ensures exists t': GigaState ::
      && Valid(t'.rx) && t'.rx.idx == 5 + n && t'.rx.payloadSize == n
      && t'.rx.buffer[..5 + n] == frame[..5 + n]
      && t'.cmd == t.cmd && t'.command == t.command
      && Run(fixed, cbor, t, frame[t.rx.idx..]) == Run(fixed, cbor, t', frame[5 + n..])
    decreases 5 + n - t.rx.idx
  {
    var k := t.rx.idx;
    if k == 5 + n {
      assert Run(fixed, cbor, t, frame[k..]) == Run(fixed, cbor, t, frame[5 + n..]);
    } else {
      PayloadStep(cbor, t, frame[k]);
      var t1 := Step(cbor, t, frame[k]).value.0;
      SilentCons(fixed, cbor, t, frame[k..]);
      assert frame[k..][1..] == frame[k + 1..];
      assert t1.rx.buffer[..k + 1] == frame[..k + 1] by {
        assert t1.rx.buffer[..k + 1] == t.rx.buffer[..k] + [frame[k]];
        assert frame[..k + 1] == frame[..k] + [frame[k]];
      }
      PayloadSteps(fixed, cbor, t1, frame, n);
    }
  }

  /** The first CRC byte is stored in the buffer and in `crc_bytes[0]`. */
  lemma FirstCrcStep(cbor: Decoder, t: GigaState, b: byte)
    requires Valid(t.rx) && t.rx.idx == 5 + t.rx.payloadSize && t.rx.payloadSize <= MaxPayload
    ensures Step(cbor, t, b) ==
      Ok((t.(rx := t.rx.(buffer := t.rx.buffer[t.rx.idx := b], crcBytes := t.rx.crcBytes[0 := b], idx := t.rx.idx + 1)), None))
  {
  }

  /**
   * The second CRC byte completes the frame: the stored CRC is checked
   * against the one computed over the length bytes and the payload, then the
   * payload is decoded, and the frame is delivered with the cursor one past it.
   */
  lemma LastCrcStep(cbor: Decoder, t: GigaState, b: byte)
    requires Valid(t.rx) && t.rx.idx == 6 + t.rx.payloadSize && t.rx.payloadSize <= MaxPayload
    ensures var ps := t.rx.payloadSize;
      var crc := FromLe(t.rx.crcBytes[0], b);
      Step(cbor, t, b) ==
        if crc != Checksum(t.rx.buffer[3..5 + ps]) then Err(CrcMismatch(Checksum(t.rx.buffer[3..5 + ps]), crc))
        else if cbor(t.rx.buffer[5..5 + ps]).None? then Err(CborDecode)
        else Ok((t.(rx := t.rx.(buffer := t.rx.buffer[t.rx.idx := b], crcBytes := t.rx.crcBytes[1 := b], idx := t.rx.idx + 1)),
                 Some(Received(t.cmd, t.command, cbor(t.rx.buffer[5..5 + ps]).value, crc))))
  {
    var ps := t.rx.payloadSize;
    var buf := t.rx.buffer[t.rx.idx := b];
    assert buf[3..5 + ps] == t.rx.buffer[3..5 + ps];
    assert buf[5..5 + ps] == t.rx.buffer[5..5 + ps];
  }

  /**
   * Receiving one start-byte frame from a reset parser: when the payload is
   * a CBOR map, exactly one frame is delivered, carrying the frame's CMD and
   * Command, the decoded payload and the CRC over the length bytes and the
   * payload; otherwise `listen` stops with the CBOR error. As written the
   * cursor is left one past the frame; corrected, the parser is reset.
   */
  lemma ReceiveFrame(fixed: bool, cbor: Decoder, s: GigaState, frame: seq<byte>, cmd: Action, command: Command, payload: seq<byte>)
    requires s.rx == Reset() && |payload| <= MaxPayload
    requires IsStartFrame(frame, ActionByte(cmd), CommandByte(command), payload)
    ensures var r := Run(fixed, cbor, s, frame);
      && (cbor(payload).None? ==> r == Err(CborDecode))
      && (cbor(payload).Some? ==>
            && r.Ok?
            && r.value.1 == [Received(cmd, command, cbor(payload).value, Checksum(frame[3..5 + |payload|]))]
            && r.value.0.cmd == cmd && r.value.0.command == command
            && (fixed ==> r.value.0.rx == Reset())
            && (!fixed ==> r.value.0.rx.idx == |frame| && r.value.0.rx.payloadSize == |payload|))
  {
    var n := |payload|;
    ActionRoundTrip(cmd, cmd);
    CommandRoundTrip(command);
    assert FromLe(frame[3], frame[4]) == n;
    HeaderSteps(fixed, cbor, s, frame);
    var t5: GigaState :| && Valid(t5.rx) && t5.rx.idx == 5
      && Run(fixed, cbor, s, frame) == Run(fixed, cbor, t5, frame[5..])
      && t5.rx.buffer[..5] == frame[..5]
      && t5.cmd == ActionFromByte(frame[1]).value && t5.command == CommandFromByte(frame[2])
      && t5.rx.payloadSize == FromLe(frame[3], frame[4]);
    PayloadSteps(fixed, cbor, t5, frame, n);
    var t: GigaState :| && Valid(t.rx) && t.rx.idx == 5 + n && t.rx.payloadSize == n
      && t.rx.buffer[..5 + n] == frame[..5 + n]
      && t.cmd == t5.cmd && t.command == t5.command
      && Run(fixed, cbor, t5, frame[5..]) == Run(fixed, cbor, t, frame[5 + n..]);
    CrcSteps(fixed, cbor, t, frame, n);
    assert frame[5..5 + n] == payload;
  }

  /** The two CRC bytes of a frame whose payload and length have been read. */
  lemma CrcSteps(fixed: bool, cbor: Decoder, t: GigaState, frame: seq<byte>, n: nat)
    requires Valid(t.rx) && |frame| == n + 7 && n <= MaxPayload
    requires t.rx.idx == 5 + n && t.rx.payloadSize == n && t.rx.buffer[..5 + n] == frame[..5 + n]
    requires FromLe(frame[5 + n], frame[6 + n]) == Checksum(frame[3..5 + n])
    ensures var r := Run(fixed, cbor, t, frame[5 + n..]);
      && (cbor(frame[5..5 + n]).None? ==> r == Err(CborDecode))
      && (cbor(frame[5..5 + n]).Some? ==>
            && r.Ok?
            && r.value.1 == [Received(t.cmd, t.command, cbor(frame[5..5 + n]).value, Checksum(frame[3..5 + n]))]
            && r.value.0.cmd == t.cmd && r.value.0.command == t.command
            && (fixed ==> r.value.0.rx == Reset())
            && (!fixed ==> r.value.0.rx.idx == n + 7 && r.value.0.rx.payloadSize == n))
  {
    FirstCrcStep(cbor, t, frame[5 + n]);
    var t6 := Step(cbor, t, frame[5 + n]).value.0;
    SilentCons(fixed, cbor, t, frame[5 + n..]);
    assert frame[5 + n..][1..] == [frame[6 + n]];
    assert t6.rx.buffer[3..5 + n] == frame[3..5 + n];
    assert t6.rx.buffer[5..5 + n] == frame[5..5 + n];
    LastCrcStep(cbor, t6, frame[6 + n]);
    RunOne(fixed, cbor, t6, frame[6 + n]);
  }

  /** Round trip over the start-byte link: what `build_frame` sends, a reset parser receives. */
  lemma BuildReceiveRoundTrip(fixed: bool, cbor: Decoder, cmd: Action, command: Command, payload: seq<byte>)
    requires |payload| <= MaxPayload && cbor(payload).Some?
    ensures var r := Run(fixed, cbor, Initial(), BuildFrame(cmd, command, payload));
      && r.Ok?
      && r.value.1 == [Received(cmd, command, cbor(payload).value, Checksum(ToLe(|payload|) + payload))]
  {
    var frame := BuildFrame(cmd, command, payload);
    ReceiveFrame(fixed, cbor, Initial(), frame, cmd, command, payload);
    CheckedBytes(cmd, command, payload);
  }

  /** The bytes a frame's CRC covers are its length field and its payload. */
  lemma CheckedBytes(cmd: Action, command: Command, payload: seq<byte>)
    requires |payload| <= MaxPayload
    ensures BuildFrame(cmd, command, payload)[3..5 + |payload|] == ToLe(|payload|) + payload
  {
    var frame := BuildFrame(cmd, command, payload);
    ToLeFromLe(frame[3], frame[4]);
    assert frame[3..5] == [frame[3], frame[4]];
  }

  // ---------------------------------------------------------------- after a frame

  /** As written, the byte after a completed frame lands in the catch-all arm and is dropped, whatever it is. */
  lemma ByteAfterFrameDropped(cbor: Decoder, s: GigaState, b: byte)
    requires Valid(s.rx) && s.rx.idx == 7 + s.rx.payloadSize && s.rx.idx < MaxDataLen
    ensures Step(cbor, s, b) == Ok((Restart(s), None))
  {
  }

  /**
   * Two frames sent back to back: as written the second frame's start byte
   * is swallowed and the parser is back at the beginning, waiting for a
   * start byte; corrected, the start byte is accepted.
   */
  lemma NextStartByteLost(cbor: Decoder, cmd: Action, command: Command, payload: seq<byte>)
    requires |payload| < MaxPayload && cbor(payload).Some?
    ensures var bytes := BuildFrame(cmd, command, payload) + [StartByte];
      && Run(false, cbor, Initial(), bytes).Ok? && Run(false, cbor, Initial(), bytes).value.0.rx.idx == 0
      && Run(true, cbor, Initial(), bytes).Ok? && Run(true, cbor, Initial(), bytes).value.0.rx.idx == 1
  {
    var frame := BuildFrame(cmd, command, payload);
    ReceiveFrame(false, cbor, Initial(), frame, cmd, command, payload);
    ReceiveFrame(true, cbor, Initial(), frame, cmd, command, payload);
    RunAppend(false, cbor, Initial(), frame, [StartByte]);
    RunAppend(true, cbor, Initial(), frame, [StartByte]);
    var a := Run(false, cbor, Initial(), frame).value.0;
    var f := Run(true, cbor, Initial(), frame).value.0;
    ByteAfterFrameDropped(cbor, a, StartByte);
    RunOne(false, cbor, a, StartByte);
    RunOne(true, cbor, f, StartByte);
  }

  /**
   * As written, a frame with the largest accepted payload fills the buffer
   * exactly, and the next byte indexes past it; corrected, it is read as the
   * start of a new frame.
   */
  lemma MaximalFramePanics(cbor: Decoder, cmd: Action, command: Command, payload: seq<byte>, b: byte)
    requires |payload| == MaxPayload && cbor(payload).Some?
    ensures var bytes := BuildFrame(cmd, command, payload) + [b];
      && Run(false, cbor, Initial(), bytes) == Err(IndexOutOfBounds(MaxDataLen, MaxDataLen))
      && Run(true, cbor, Initial(), bytes).Ok?
  {
    var frame := BuildFrame(cmd, command, payload);
    ReceiveFrame(false, cbor, Initial(), frame, cmd, command, payload);
    ReceiveFrame(true, cbor, Initial(), frame, cmd, command, payload);
    RunAppend(false, cbor, Initial(), frame, [b]);
    RunAppend(true, cbor, Initial(), frame, [b]);
    RunOne(false, cbor, Run(false, cbor, Initial(), frame).value.0, b);
    RunOne(true, cbor, Run(true, cbor, Initial(), frame).value.0, b);
  }

  /** Corrected, two frames sent back to back are both delivered, in order. */
  lemma BackToBackFixed(cbor: Decoder, cmd1: Action, command1: Command, payload1: seq<byte>,
                        cmd2: Action, command2: Command, payload2: seq<byte>)
    requires |payload1| <= MaxPayload && cbor(payload1).Some?
    requires |payload2| <= MaxPayload && cbor(payload2).Some?
    ensures var r := Run(true, cbor, Initial(), BuildFrame(cmd1, command1, payload1) + BuildFrame(cmd2, command2, payload2));
      && r.Ok?
      && r.value.1 == [Received(cmd1, command1, cbor(payload1).value, Checksum(ToLe(|payload1|) + payload1)),
                       Received(cmd2, command2, cbor(payload2).value, Checksum(ToLe(|payload2|) + payload2))]
  {
    var f1 := BuildFrame(cmd1, command1, payload1);
    var f2 := BuildFrame(cmd2, command2, payload2);
    ReceiveFrame(true, cbor, Initial(), f1, cmd1, command1, payload1);
    CheckedBytes(cmd1, command1, payload1);
    var mid := Run(true, cbor, Initial(), f1).value.0;
    ReceiveFrame(true, cbor, mid, f2, cmd2, command2, payload2);
    CheckedBytes(cmd2, command2, payload2);
    RunAppend(true, cbor, Initial(), f1, f2);
  }
}

=== FILE: model.dfy ===
/** The byte codes and message record shared by both framings (src/model.rs). */
module Model {
  import opened Bytes
  import opened Wrappers
  import opened Cbor

  /** The COBS listener's mode: `CheckingDebug(n)` has matched the first `n` bytes of the debug marker. */
  datatype ReceiveState = Normal | Debug | CheckingDebug(matched: nat)

  /** The action byte of a frame. Also stands for the `CMD` type of src/main.rs, which src/model.rs does not define. */
  datatype Action = SEND | READ | GIGA | NONE

  /** `action as u8`. */
  function ActionByte(a: Action): byte {
    match a
    case SEND => 0xaa
    case READ => 0xa8
    case GIGA => 0xae
    case NONE => 0x00
  }

  /** `Action::try_from(u8)`: the variant whose discriminant is `b`, an error for any other byte. */
  function ActionFromByte(b: byte): (r: Result<Action, string>)
    ensures r.Ok? <==> exists a :: ActionByte(a) == b
    ensures r.Ok? ==> ActionByte(r.value) == b
    ensures r.Err? ==> r.error == "Invalid CMD Byte"
  {
    if b == 0xaa then assert ActionByte(SEND) == b; Ok(SEND)
    else if b == 0xa8 then assert ActionByte(READ) == b; Ok(READ)
    else if b == 0xae then assert ActionByte(GIGA) == b; Ok(GIGA)
    else if b == 0x00 then assert ActionByte(Action.NONE) == b; Ok(Action.NONE)
    else
      assert forall a :: ActionByte(a) != b;
      Err("Invalid CMD Byte")
  }

  /** Every action survives the trip through its byte, and distinct actions have distinct bytes. */
  lemma ActionRoundTrip(a: Action, a': Action)
    ensures ActionFromByte(ActionByte(a)) == Ok(a)
    ensures a != a' ==> ActionByte(a) != ActionByte(a')
  {
  }

  /** The command byte of a frame. */
  datatype Command = NONE | ACK | NACK | MOTOR | SetID | FILE | Sensor | SensorLOW

  /** `command as u8`. */
  function CommandByte(c: Command): byte {
    match c
    case NONE => 0x00
    case ACK => 0x01
    case NACK => 0x02
    case MOTOR => 0x03
    case SetID => 0x04
    case FILE => 0x05
    case Sensor => 0x06
    case SensorLOW => 0x07
  }

  /** `Command::from(u8)`: total, with `NONE` for every byte past the last discriminant. */
  function CommandFromByte(b: byte): (r: Command)
    ensures b <= 0x07 ==> CommandByte(r) == b
    ensures b > 0x07 ==> r == Command.NONE
  {
    if b == 0x00 then Command.NONE
    else if b == 0x01 then ACK
    else if b == 0x02 then NACK
    else if b == 0x03 then MOTOR
    else if b == 0x04 then SetID
    else if b == 0x05 then FILE
    else if b == 0x06 then Sensor
    else if b == 0x07 then SensorLOW
    else Command.NONE
  }

  /** Every command survives the trip through its byte. */
  lemma CommandRoundTrip(c: Command)
    ensures CommandFromByte(CommandByte(c)) == c
  {
  }

  /** The device's error codes. */
  datatype ErrorCode =
    | Success
    | DataMissMatch
    | UnknownError
    | MemoryOverload
    | DecodeCBORError
    | CRCError
    | DataOverload
    | StorageAccessFailure
    | FileAccessViolation
    | WiFiPartitionError
    | UserPartitionError
    | MountingFileSystemFailed
    | InvalidID
    | InvalidCMD
    | SendCMDFail
    | WriteNVRamFail

  /** `code as u32`: `Success` is 0, `DataMissMatch` is 1001, and each later variant one more than the one before. */
  function ErrorCodeValue(e: ErrorCode): u32 {
    match e
    case Success => 0
    case DataMissMatch => 1001
    case UnknownError => 1002
    case MemoryOverload => 1003
    case DecodeCBORError => 1004
    case CRCError => 1005
    case DataOverload => 1006
    case StorageAccessFailure => 1007
    case FileAccessViolation => 1008
    case WiFiPartitionError => 1009
    case UserPartitionError => 1010
    case MountingFileSystemFailed => 1011
    case InvalidID => 1012
    case InvalidCMD => 1013
    case SendCMDFail => 1014
    case WriteNVRamFail => 1015
  }

  /** A value is a discriminant of some error code exactly when it is 0 or in 1001..1015. */
  predicate IsErrorCodeValue(v: u32) {
    v == 0 || 1001 <= v <= 1015
  }

  /** `ErrorCode::from(u32)`: total, with `UnknownError` for every value that is no discriminant. */
  function ErrorCodeFromU32(v: u32): (r: ErrorCode)
    ensures IsErrorCodeValue(v) ==> ErrorCodeValue(r) == v
    ensures !IsErrorCodeValue(v) ==> r == UnknownError
  {
    if v == 0 then Success
    else if v == 1001 then DataMissMatch
    else if v == 1002 then UnknownError
    else if v == 1003 then MemoryOverload
    else if v == 1004 then DecodeCBORError
    else if v == 1005 then CRCError
    else if v == 1006 then DataOverload
    else if v == 1007 then StorageAccessFailure
    else if v == 1008 then FileAccessViolation
    else if v == 1009 then WiFiPartitionError
    else if v == 1010 then UserPartitionError
    else if v == 1011 then MountingFileSystemFailed
    else if v == 1012 then InvalidID
    else if v == 1013 then InvalidCMD
    else if v == 1014 then SendCMDFail
    else if v == 1015 then WriteNVRamFail
    else UnknownError
  }

  /** Every error code survives the trip through its value, and distinct codes have distinct values. */
  lemma ErrorCodeRoundTrip(e: ErrorCode, e': ErrorCode)
    ensures IsErrorCodeValue(ErrorCodeValue(e))
    ensures ErrorCodeFromU32(ErrorCodeValue(e)) == e
    ensures e != e' ==> ErrorCodeValue(e) != ErrorCodeValue(e')
  {
  }

  /** A decoded frame. */
  datatype Message = Message(
    action: Action,
    command: Command,
    payloadSizeBytes: seq<byte>,
    payloadSize: u16,
    payloadBytes: seq<byte>,
    payload: Payload,
    crcBytes: seq<byte>,
    crc: u16)

  /** The byte fields of `m` are the encodings of its numeric fields, and the size field counts the payload bytes. */
  predicate Consistent(m: Message) {
    && |m.payloadSizeBytes| == 2
    && FromLe(m.payloadSizeBytes[0], m.payloadSizeBytes[1]) == m.payloadSize
    && |m.payloadBytes| == m.payloadSize
    && |m.crcBytes| == 2
    && FromLe(m.crcBytes[0], m.crcBytes[1]) == m.crc
  }

  /**
   * `Message::default()`: both codes `NONE`, size and CRC zero, every byte
   * vector and the payload map empty. It is not `Consistent`: its size and
   * CRC byte vectors are empty rather than two zero bytes.
   */
  function DefaultMessage(): (m: Message)
    ensures m.action == Action.NONE && m.command == Command.NONE
    ensures m.payloadSize == 0 && m.crc == 0
    ensures m.payloadSizeBytes == [] && m.payloadBytes == [] && m.crcBytes == []
    ensures m.payload == map[]
    ensures !Consistent(m)
  {
    Message(Action.NONE, Command.NONE, [], 0, [], map[], [], 0)
  }

  /** How a receive path stops: the errors its function returns, and the panics its indexing can raise. */
  datatype Error =
    | FrameTooShort(size: nat)
    | CborDecode
    | CrcMismatch(expected: u16, got: u16)
    | CobsDecode
    | PayloadTooLarge(size: nat)
    | PayloadPastFrameEnd(size: nat, frameSize: nat)
    | IndexOutOfBounds(index: nat, len: nat)
    | CobsBufferTooSmall(needed: nat, available: nat)
}

=== FILE: rx_buffer.dfy ===
/**
 * The receive buffer and parse cursor that both receivers keep: `Giga` in
 * src/arduino.rs and `GigaCommunicate` in src/main.rs hold the same five
 * fields and reset them the same way.
 */
module RxBuffer {
  import opened Bytes

  /** `MAX_DATA_LEN`: the size of the receive buffer. */
  const MaxDataLen: nat := 1024

  datatype Rx = Rx(
    buffer: seq<byte>,
    idx: nat,
    lenBytes: seq<byte>,
    crcBytes: seq<byte>,
    payloadSize: nat)

  /** The buffer and the two-byte scratch arrays have their declared sizes. */
  predicate Valid(rx: Rx) {
    |rx.buffer| == MaxDataLen && |rx.lenBytes| == 2 && |rx.crcBytes| == 2
  }

  /** `reset()`: a zeroed buffer of `MAX_DATA_LEN` bytes, cursor, length and CRC bytes and payload size all zero. */
  function Reset(): (r: Rx)
    ensures Valid(r)
    ensures r.idx == 0 && r.payloadSize == 0
    ensures forall i :: 0 <= i < |r.buffer| ==> r.buffer[i] == 0
    ensures r.lenBytes == [0, 0] && r.crcBytes == [0, 0]
  {
    Rx(Zeros(MaxDataLen), 0, Zeros(2), Zeros(2), 0)
  }

  /** `buffer[idx] = b`. */
  function Store(rx: Rx, b: byte): (r: Rx)
    requires rx.idx < |rx.buffer|
    ensures |r.buffer| == |rx.buffer| && r.buffer[rx.idx] == b
    ensures forall i :: 0 <= i < |r.buffer| && i != rx.idx ==> r.buffer[i] == rx.buffer[i]
    ensures r.idx == rx.idx && r.lenBytes == rx.lenBytes && r.crcBytes == rx.crcBytes
    ensures r.payloadSize == rx.payloadSize
  {
    rx.(buffer := rx.buffer[rx.idx := b])
  }
}

=== FILE: sensor.dfy ===
/**
 * The sensor-trigger decision `process_normal_byte` makes for every decoded
 * `Sensor` or `SensorLOW` frame (src/arduino.rs). The payload is a
 * `HashMap`, whose key iteration order Rust leaves unspecified; the model
 * takes that order as the parameter `order`.
 */
module Sensor {
  import opened Wrappers
  import opened Cbor
  import opened Model

  /** The new trigger state, and whether a per-motor entry set it (`update_sensor_trigger`). */
  datatype Trigger = Trigger(isTriggered: bool, updated: bool)

  /** Whether a command carries a sensor report. */
  predicate IsSensorCommand(c: Command) {
    c == Sensor || c == SensorLOW
  }

  /** The Boolean under the top-level key `"triggered"`, if there is one. */
  function TopFlag(payload: Payload): Option<bool> {
    if "triggered" in payload && payload["triggered"].Bool? then Some(payload["triggered"].b) else None
  }

  /** The Boolean under the key `Text("triggered")` of a per-motor map, if there is one. */
  function MotorFlag(entries: map<Value, Value>): Option<bool> {
    if Text("triggered") in entries && entries[Text("triggered")].Bool? then Some(entries[Text("triggered")].b) else None
  }

  /** The key names a map-valued entry of the payload. */
  predicate IsMotorKey(payload: Payload, k: string) {
    k in payload && payload[k].Map?
  }

  /**
   * The per-motor loop: visits the keys in `order`, skips entries that are
   * not maps, lets each map with a Boolean `triggered` overwrite the state,
   * and stops at the first map without one. `None` when no map set the state.
   */
  function ScanMotors(payload: Payload, order: seq<string>): (r: Option<bool>)
    ensures r.Some? ==> exists k :: k in order && IsMotorKey(payload, k) && MotorFlag(payload[k].entries) == r
    ensures (forall k :: k in order ==> !IsMotorKey(payload, k)) ==> r.None?
    decreases |order|
  {
    if |order| == 0 then None
    else
      var name := order[0];
      if IsMotorKey(payload, name) then
        match MotorFlag(payload[name].entries)
        case Some(t) =>
          var later := ScanMotors(payload, order[1..]);
          if later.Some? then later else Some(t)
        case None => None
      else
        ScanMotors(payload, order[1..])
  }

  /** The index of the first map-valued entry at or after `lo` in `order`, or `|order|` when there is none. */
  function NextMotor(payload: Payload, order: seq<string>, lo: nat): (n: nat)
    requires lo <= |order|
    ensures lo <= n <= |order|
    ensures n < |order| ==> IsMotorKey(payload, order[n])
    ensures forall j :: lo <= j < n ==> !IsMotorKey(payload, order[j])
    decreases |order| - lo
  {
    if lo == |order| then lo
    else if IsMotorKey(payload, order[lo]) then lo
    else NextMotor(payload, order, lo + 1)
  }

  /** From `lo` on, the loop stops: either no map-valued entry follows, or the first one has no Boolean `triggered`. */
  predicate StopsAt(payload: Payload, order: seq<string>, lo: nat)
    requires lo <= |order|
  {
    var n := NextMotor(payload, order, lo);
    n == |order| || MotorFlag(payload[order[n]].entries).None?
  }

  /**
   * `order[i]` is the motor entry whose flag `b` the loop leaves behind:
   * every motor entry before it carries a flag, and the next motor entry
   * after it, if any, carries none.
   */
  predicate LastFlagAt(payload: Payload, order: seq<string>, i: int, b: bool) {
    && 0 <= i < |order|
    && IsMotorKey(payload, order[i])
    && MotorFlag(payload[order[i]].entries) == Some(b)
    && (forall j :: 0 <= j < i && IsMotorKey(payload, order[j]) ==> MotorFlag(payload[order[j]].entries).Some?)
    && StopsAt(payload, order, i + 1)
  }

  /** Dropping the first key shifts every later motor-entry index down by one. */
  lemma {:induction false} NextMotorShift(payload: Payload, order: seq<string>, lo: nat)
    requires 1 <= lo <= |order|
    ensures NextMotor(payload, order, lo) == 1 + NextMotor(payload, order[1..], lo - 1)
    decreases |order| - lo
  {
    if lo < |order| {
      assert order[1..][lo - 1] == order[lo];
      if !IsMotorKey(payload, order[lo]) {
        NextMotorShift(payload, order, lo + 1);
      }
    }
  }

  /** When the first key is not a flagless motor entry, `LastFlagAt` moves with the rest of the order. */
  lemma LastFlagShift(payload: Payload, order: seq<string>, j: nat, b: bool)
    requires |order| > 0
    requires IsMotorKey(payload, order[0]) ==> MotorFlag(payload[order[0]].entries).Some?
    ensures LastFlagAt(payload, order, j + 1, b) <==> LastFlagAt(payload, order[1..], j, b)
  {
    var tail := order[1..];
    if j < |tail| {
      assert order[j + 1] == tail[j];
      assert forall k :: 0 <= k < j ==> tail[k] == order[k + 1];
      NextMotorShift(payload, order, j + 2);
      var n := NextMotor(payload, tail, j + 1);
      if n < |tail| {
        assert order[n + 1] == tail[n];
      }
    }
  }

  /** The loop yields no state exactly when it stops before any motor entry sets one. */
  lemma {:induction false} ScanMotorsNone(payload: Payload, order: seq<string>)
    ensures ScanMotors(payload, order).None? <==> StopsAt(payload, order, 0)
    decreases |order|
  {
    if |order| > 0 && !IsMotorKey(payload, order[0]) {
      ScanMotorsNone(payload, order[1..]);
      NextMotorShift(payload, order, 1);
      var n := NextMotor(payload, order[1..], 0);
      if n < |order[1..]| {
        assert order[n + 1] == order[1..][n];
      }
    }
  }

  /** A state the loop yields is the flag of the `LastFlagAt` entry. */
  lemma {:induction false} ScanMotorsFindsLast(payload: Payload, order: seq<string>) returns (i: int)
    requires ScanMotors(payload, order).Some?
    ensures LastFlagAt(payload, order, i, ScanMotors(payload, order).value)
    decreases |order|
  {
    var b := ScanMotors(payload, order).value;
    var tail := order[1..];
    if IsMotorKey(payload, order[0]) && ScanMotors(payload, tail).None? {
      ScanMotorsNone(payload, tail);
      NextMotorShift(payload, order, 1);
      var n := NextMotor(payload, tail, 0);
      if n < |tail| {
        assert order[n + 1] == tail[n];
      }
      i := 0;
    } else {
      var j := ScanMotorsFindsLast(payload, tail);
      LastFlagShift(payload, order, j, b);
      i := j + 1;
    }
  }

  /** Conversely, the `LastFlagAt` entry's flag is what the loop yields. */
  lemma {:induction false} LastFlagDecides(payload: Payload, order: seq<string>, i: int, b: bool)
    requires LastFlagAt(payload, order, i, b)
    ensures ScanMotors(payload, order) == Some(b)
    decreases |order|
  {
    var tail := order[1..];
    if i == 0 {
      NextMotorShift(payload, order, 1);
      var n := NextMotor(payload, tail, 0);
      if n < |tail| {
        assert order[n + 1] == tail[n];
      }
      ScanMotorsNone(payload, tail);
    } else {
      LastFlagShift(payload, order, i - 1, b);
      LastFlagDecides(payload, tail, i - 1, b);
    }
  }

  /**
   * When every motor entry the loop meets carries the same Boolean `b`, the
   * loop yields `b` if it meets any motor entry at all, whatever the order.
   */
  lemma {:induction false} ScanMotorsAgreeing(payload: Payload, order: seq<string>, b: bool)
    requires forall k :: k in order && IsMotorKey(payload, k) ==> MotorFlag(payload[k].entries) == Some(b)
    ensures ScanMotors(payload, order) == (if exists k :: k in order && IsMotorKey(payload, k) then Some(b) else None)
    decreases |order|
  {
    if |order| > 0 {
      assert forall k :: k in order[1..] ==> k in order;
      ScanMotorsAgreeing(payload, order[1..], b);
      if !IsMotorKey(payload, order[0]) {
        assert (exists k :: k in order && IsMotorKey(payload, k)) == (exists k :: k in order[1..] && IsMotorKey(payload, k)) by {
          forall k | k in order && IsMotorKey(payload, k)
            ensures k in order[1..]
          {
            var i :| 0 <= i < |order| && order[i] == k;
            assert i != 0;
            assert order[1..][i - 1] == k;
          }
        }
      }
    }
  }

  /**
   * The trigger state after a frame: unchanged for other commands; for a
   * sensor report, the top-level `triggered` Boolean if present, else the
   * per-motor loop's result, else `false` for `Sensor` and `true` for
   * `SensorLOW`.
   */
  function SensorTrigger(command: Command, payload: Payload, order: seq<string>, current: bool): (t: Trigger)
    ensures !IsSensorCommand(command) ==> t == Trigger(current, false)
    ensures IsSensorCommand(command) && TopFlag(payload).Some? ==> t == Trigger(TopFlag(payload).value, false)
    ensures IsSensorCommand(command) && TopFlag(payload).None? ==>
      && (t.updated ==> exists k :: k in order && IsMotorKey(payload, k) && MotorFlag(payload[k].entries) == Some(t.isTriggered))
      && (!t.updated ==> t.isTriggered == (command == SensorLOW))
    ensures IsSensorCommand(command) && TopFlag(payload).None? && (forall k :: k in order ==> !IsMotorKey(payload, k)) ==>
      t == Trigger(command == SensorLOW, false)
    ensures IsSensorCommand(command) && TopFlag(payload).None? && ScanMotors(payload, order).Some? ==>
      t == Trigger(ScanMotors(payload, order).value, true)
    ensures IsSensorCommand(command) && TopFlag(payload).None? && ScanMotors(payload, order).None? ==>
      t == Trigger(command == SensorLOW, false)
  {
    if !IsSensorCommand(command) then Trigger(current, false)
    else
      match TopFlag(payload)
      case Some(b) => Trigger(b, false)
      case None =>
        match ScanMotors(payload, order)
        case Some(b) => Trigger(b, true)
        case None => Trigger(command != Sensor, false)
  }

  /**
   * Without a top-level flag, a sensor report sets the state from the motor
   * entries exactly when the loop does not stop first, and then to the flag
   * of the `LastFlagAt` entry; otherwise the command's default applies.
   */
  lemma SensorTriggerFromEntries(command: Command, payload: Payload, order: seq<string>, current: bool)
    requires IsSensorCommand(command) && TopFlag(payload).None?
    ensures SensorTrigger(command, payload, order, current).updated <==> !StopsAt(payload, order, 0)
    ensures StopsAt(payload, order, 0) ==> SensorTrigger(command, payload, order, current) == Trigger(command == SensorLOW, false)
    ensures forall i, b :: LastFlagAt(payload, order, i, b) ==> SensorTrigger(command, payload, order, current) == Trigger(b, true)
  {
    ScanMotorsNone(payload, order);
    forall i, b | LastFlagAt(payload, order, i, b)
      ensures SensorTrigger(command, payload, order, current) == Trigger(b, true)
    {
      LastFlagDecides(payload, order, i, b);
    }
  }

  /** `order` lists every key of `payload` and nothing else, as a `HashMap` iteration does. */
  ghost predicate EnumeratesKeys(order: seq<string>, payload: Payload) {
    forall k :: k in order <==> k in payload
  }

  /**
   * When all motor entries report the same Boolean, the decision does not
   * depend on the order in which the `HashMap` yields its keys.
   */
  lemma TriggerOrderIndependent(command: Command, payload: Payload, o1: seq<string>, o2: seq<string>, current: bool, b: bool)
    requires EnumeratesKeys(o1, payload) && EnumeratesKeys(o2, payload)
    requires forall k :: IsMotorKey(payload, k) ==> MotorFlag(payload[k].entries) == Some(b)
    ensures SensorTrigger(command, payload, o1, current) == SensorTrigger(command, payload, o2, current)
  {
    ScanMotorsAgreeing(payload, o1, b);
    ScanMotorsAgreeing(payload, o2, b);
    assert (exists k :: k in o1 && IsMotorKey(payload, k)) == (exists k :: k in o2 && IsMotorKey(payload, k));
  }

  /** With disagreeing motor entries, the `HashMap` order decides: the last entry visited wins. */
  lemma TriggerOrderMatters()
    ensures var payload := map["a" := Map(map[Text("triggered") := Bool(true)]),
                               "b" := Map(map[Text("triggered") := Bool(false)])];
      && SensorTrigger(Sensor, payload, ["a", "b"], false) == Trigger(false, true)
      && SensorTrigger(Sensor, payload, ["b", "a"], false) == Trigger(true, true)
  {
    var payload := map["a" := Map(map[Text("triggered") := Bool(true)]),
                       "b" := Map(map[Text("triggered") := Bool(false)])];
    assert "triggered" !in payload;
    assert ScanMotors(payload, ["b"]) == Some(false);
    assert ScanMotors(payload, ["a"]) == Some(true);
    assert ["a", "b"][1..] == ["b"];
    assert ["b", "a"][1..] == ["a"];
  }
}

=== FILE: start_frame.dfy ===
/**
 * The start-byte, length-prefixed frame both programs can build:
 * `0x7e, cmd, command, len (LE), payload, CRC-16/USB (LE)`, the CRC taken
 * over the length bytes and the payload.
 */
module StartFrame {
  import opened Bytes
  import opened Crc16

  /** `START_BYTE[0]`. */
  const StartByte: byte := 0x7e

  /** The bytes before the payload. */
  const HeaderLen: nat := 5

  /** `frame` is the start-byte frame carrying `payload`, described byte by byte. */
  predicate IsStartFrame(frame: seq<byte>, cmdByte: byte, commandByte: byte, payload: seq<byte>) {
    var n := |payload|;
    && |frame| == n + 7
    && frame[0] == StartByte
    && frame[1] == cmdByte
    && frame[2] == commandByte
    && FromLe(frame[3], frame[4]) == AsU16(n)
    && frame[5..5 + n] == payload
    && FromLe(frame[5 + n], frame[6 + n]) == Checksum(frame[3..5 + n])
  }

  /**
   * The layout fixes every byte: two frames that carry the same codes and
   * payload are equal, so all builders of this layout agree.
   */
  lemma LayoutDeterminesFrame(f: seq<byte>, g: seq<byte>, cmdByte: byte, commandByte: byte, payload: seq<byte>)
    requires IsStartFrame(f, cmdByte, commandByte, payload)
    requires IsStartFrame(g, cmdByte, commandByte, payload)
    ensures f == g
  {
    var n := |payload|;
    ToLeFromLe(f[3], f[4]);
    ToLeFromLe(g[3], g[4]);
    assert f[..5] == g[..5] by {
      assert f[..5] == [f[0], f[1], f[2]] + ToLe(FromLe(f[3], f[4]));
      assert g[..5] == [g[0], g[1], g[2]] + ToLe(FromLe(g[3], g[4]));
    }
    assert f[..5 + n] == f[..5] + f[5..5 + n];
    assert g[..5 + n] == g[..5] + g[5..5 + n];
    assert f[3..5 + n] == g[3..5 + n];
    ToLeFromLe(f[5 + n], f[6 + n]);
    ToLeFromLe(g[5 + n], g[6 + n]);
    assert f == f[..5 + n] + [f[5 + n], f[6 + n]];
    assert g == g[..5 + n] + [g[5 + n], g[6 + n]];
  }
}

=== FILE: window.dfy ===
/**
 * The 100-entry timing windows of `process_normal_byte`
 * (`receive_buf_elapsed_list`, `process_buf_elapsed_list`): push the new
 * sample, then drop the oldest while the list is longer than 100.
 */
module Window {

  const WindowSize: nat := 100

  /** `list.push(x); if list.len() > 100 { list.remove(0); }` */
  function Push<T>(w: seq<T>, x: T): (r: seq<T>)
    ensures |w| < WindowSize ==> |r| == |w| + 1
    ensures |w| >= WindowSize ==> |r| == |w|
    ensures |r| > 0 && r[|r| - 1] == x
    ensures |w| < WindowSize ==> r[..|w|] == w
    ensures |w| >= WindowSize ==> r[..|w| - 1] == w[1..]
  {
    var v := w + [x];
    if |v| > WindowSize then v[1..] else v
  }

  /** The window after pushing `xs` in order. */
  function PushAll<T>(w: seq<T>, xs: seq<T>): seq<T>
    decreases |xs|
  {
    if |xs| == 0 then w else PushAll(Push(w, xs[0]), xs[1..])
  }

  function Min(a: nat, b: nat): nat {
    if a < b then a else b
  }

  /** The latest `min(100, |all|)` samples of `all`, oldest first. */
  function Latest<T>(all: seq<T>): (r: seq<T>)
    ensures |r| == Min(|all|, WindowSize)
  {
    all[|all| - Min(|all|, WindowSize)..]
  }

  /** A window that starts with at most 100 samples always holds the latest `min(100, all)` samples, oldest first. */
  lemma {:induction false} PushAllKeepsLatest<T>(w: seq<T>, xs: seq<T>)
    requires |w| <= WindowSize
    ensures PushAll(w, xs) == Latest(w + xs)
    decreases |xs|
  {
    var all := w + xs;
    if |xs| == 0 {
      assert all == w;
    } else {
      var w' := Push(w, xs[0]);
      PushAllKeepsLatest(w', xs[1..]);
      var cut := PushDrops(w, xs[0], xs[1..]);
      ConsSplit(w, xs);
      LatestOfSuffix(all, cut);
    }
  }

  /** Pushing onto a window of at most 100 drops at most its oldest sample: what follows is a suffix of everything seen. */
  lemma PushDrops<T>(w: seq<T>, x: T, rest: seq<T>) returns (cut: nat)
    requires |w| <= WindowSize
    ensures |Push(w, x)| <= WindowSize
    ensures cut <= 1 && (cut == 1 ==> |w| + 1 + |rest| > WindowSize)
    ensures Push(w, x) + rest == (w + [x] + rest)[cut..]
  {
    var v := w + [x];
    cut := |w| + 1 - |Push(w, x)|;
    assert Push(w, x) == v[cut..];
    assert v[cut..] + rest == (v + rest)[cut..];
  }

  /** The first sample pushed, then the others. */
  lemma ConsSplit<T>(w: seq<T>, xs: seq<T>)
    requires |xs| > 0
    ensures w + [xs[0]] + xs[1..] == w + xs
  {
    assert xs == [xs[0]] + xs[1..];
  }

  /** Dropping at most one sample from a sequence longer than the window keeps the latest window. */
  lemma LatestOfSuffix<T>(all: seq<T>, cut: nat)
    requires cut <= 1 && cut <= |all| && (cut == 1 ==> |all| > WindowSize)
    ensures Latest(all[cut..]) == Latest(all)
  {
  }
}

=== FILE: wrappers.dfy ===
/** Failure-carrying result types used by every part of the model. */
module Wrappers {

  /** A value that may be missing. */
  datatype Option<+T> = None | Some(value: T) {

    /** The carried value, or `default` when there is none. */
    function GetOr(default: T): T {
      match this
      case Some(v) => v
      case None => default
    }
  }

  /** The outcome of an operation that can fail with an error of type `E`. */
  datatype Result<+T, +E> = Ok(value: T) | Err(error: E) {

    /** The carried value, or `default` when the operation failed. */
    function GetOr(default: T): T {
      match this
      case Ok(v) => v
      case Err(_) => default
    }
  }
}
